=== FILE: README.md ===
# Interrupt and process simulator — Dafny model

This project models the trace interpreter `simulate_trace` of a teaching
simulator of CPU execution, interrupt handling and process creation
(`interrupts.cpp`). The interpreter walks a trace of events (CPU, SYSCALL,
END_IO, FORK, EXEC and the branch markers IF_CHILD, IF_PARENT, ENDIF). It
advances an integer clock and writes an execution log and a system-status
log. For FORK it builds the child's trace by a flag-driven scan and runs the
child recursively. For EXEC it loads the program's trace and runs it
recursively; the current trace then stops.

Layout (one module per file):

- `trace.dfy` — `Trace`: the typed `Event` of one parsed trace line.
- `process.dfy` — `Process`: the PCB, status snapshots, execution-log records.
- `platform.dfy` — `Platform`: collaborators whose code is not part of this
  model. These are the interrupt boilerplate, the memory manager, the program
  size table and the trace loader. They are fields of an `Env<M>` record,
  where `M` is the memory manager's state.
- `branch.dfy` — `Branch`: the fork branch scan, as a recursive function
  `Scan` and as the source's loop `ExtractChildLoop`.
- `branch_facts.dfy` — `BranchFacts`: properties of the scan.
- `simulator.dfy` — `Simulator`: the per-event steps and the interpreter `Loop`.
- `simulator_facts.dfy` — `SimulatorFacts`: properties of whole runs.
- `scenarios.dfy` — `Scenarios`: whole runs of small traces.

The interpreter is a pure function. The state that is shared across recursion
levels is threaded explicitly: the static `next_pid` counter and the memory
state. Each recursive call starts with empty logs, and the caller splices the
sub-run's logs, clock, counter and memory back in.

After a FORK the loop continues at `parent_index + 1`. When no IF_PARENT
follows the FORK, `parent_index` stays 0 and the loop continues at line 1. For
a FORK on line 0 that is a step forward. For a FORK on line 1 or later it is a
jump back, which reaches the same FORK again and can repeat forever. The outer
scan never copies an IF_PARENT into a child trace. So a FORK nested inside a
child branch, but not as its first line, and with no EXEC before it in the
branch, makes the run diverge once the outer child gets memory
(`Scenarios.NestedForkNeverFinishes`). A nested FORK that is the first line of
the child branch lands on child line 0, and the run finishes
(`Scenarios.NestedForkFirstLineFinishes`). A kept EXEC before the nested FORK
ends the child before that FORK is reached, and the run finishes as well
(`Scenarios.ExecBeforeNestedForkFinishes`).

So `Loop` takes `fuel`. Each EXEC and each backward jump costs one unit, and
`OutOfFuel` is the outcome when none is left. A forked child runs with the
same fuel, because its trace is strictly shorter.

In these places the code does something a reader might not expect; the
model follows the code:

- The "Child process created" line is logged with duration 2, so one would
  expect it to cost 2 ticks, but the clock does not advance (interrupts.cpp:62).
- A FORK whose child gets no memory, and so has no child to terminate, still
  logs and costs the 1-tick termination line (interrupts.cpp:95-96).
- An EXEC whose allocation failed still runs the program's trace
  (interrupts.cpp:121-128).
- For `IF_CHILD … ENDIF` with no IF_PARENT, the ENDIF and everything after it
  go into the child trace, and the parent index stays 0
  (`BranchFacts.ExtractWithoutParentBranch`).
- When the root process gets no memory, the driver only reports it and the
  run goes on (interrupts.cpp:157-159).

## Model

| member | source | states |
|---|---|---|
| `Branch.Scan` | interrupts.cpp:74-81 | The scan from a line keeps at most the lines it passes. It ends with its starting parent index or with the position of an IF_PARENT it passed. |
| `Branch.ExtractChild` | interrupts.cpp:69-82 | The child trace of a FORK is strictly shorter than the trace from the FORK on. The parent index is 0 or the position of an IF_PARENT after the FORK. |
| `Branch.ExtractChildLoop` | interrupts.cpp:69-82 | The source's loop, with its `skip` and `exec_flag` flags, `continue` and `break`, computes exactly the child trace and parent index of `ExtractChild`. |
| `BranchFacts.ChildIsSubsequence` | interrupts.cpp:70-80 | The child trace is a subsequence of the lines after the FORK; the FORK line itself is never kept, because `skip` starts true. It is shorter than the trace and holds only lines of the trace. |
| `BranchFacts.ChildHasNoIfParent` | interrupts.cpp:77-80 | No IF_PARENT line ever enters the child trace. |
| `BranchFacts.ParentIndexZeroIff` | interrupts.cpp:72-77 | The parent index stays 0 if and only if no IF_PARENT follows the FORK. |
| `BranchFacts.ParentIndexIsLastIfParent` | interrupts.cpp:74-77 | When no EXEC enters the child trace, the scan runs to the end and the parent index is the last IF_PARENT after the FORK. |
| `BranchFacts.ScanStopsAfterExec` | interrupts.cpp:77-79 | For every trace: once an EXEC has been kept, the scan ends at the next IF_PARENT, whatever markers, FORKs or EXECs lie before it. That IF_PARENT is the parent index, and the scan gives the same result on the trace cut just after it, so no later line enters the child trace. |
| `BranchFacts.ExtractBothBranches` | interrupts.cpp:69-82 | For `FORK; IF_CHILD; c; IF_PARENT; p; ENDIF; rest` with no markers or EXECs in `c` and `rest`, the child runs `c` then `rest`. The parent branch `p` is left out, and the parent resumes at the IF_PARENT. |
| `BranchFacts.ExtractExecBranch` | interrupts.cpp:76-79 | When a plain child branch reaches an EXEC, and no IF_CHILD or ENDIF lies between the EXEC and the next IF_PARENT, the EXEC is kept exactly once and ends the child trace. The scan stops at that IF_PARENT, whatever follows it. |
| `BranchFacts.ExecBranchParentIndex` | interrupts.cpp:76-79 | When a plain child branch reaches an EXEC, the parent index is the first IF_PARENT after the EXEC, even with IF_CHILD or ENDIF lines in between. |
| `BranchFacts.ExtractWithoutParentBranch` | interrupts.cpp:76-82 | With a child branch and no IF_PARENT, the ENDIF and all lines after it enter the child trace, and the parent index stays 0. |
| `Platform.Dispatch` | interrupts.cpp:29-31 | The interrupt boilerplate is called with context-save time 10. The time it returns is never before the time it was given. |
| `Platform.Allocate` | interrupts.cpp:59-63 | Allocation either gives the process a partition other than -1 and answers true, or leaves it at -1 and answers false. Nothing else of the PCB changes. |
| `Platform.Release` | interrupts.cpp:92 | Freeing leaves the PCB without a partition and hands the partition back to the memory manager. |
| `Simulator.Interrupt` | interrupts.cpp:28-48 | SYSCALL(n) and END_IO(n) finish at the boilerplate's time plus `delays[n]` plus 1. They append the boilerplate, then an ISR line of `delays[n]` ticks at that time, then a 1-tick IRET line. They need `0 <= n < |delays|`. |
| `Simulator.Burst` | interrupts.cpp:24-26 | CPU(d) appends exactly one line of `d` ticks, stamped with the clock at its start, and moves the clock by exactly `d`. Status, counter and memory are untouched. |
| `Simulator.ForkStart` | interrupts.cpp:50-66 | The child takes the counter's value as its PID, and the counter moves by exactly 1. The child's parent is the current PID, its name is the current name plus `_child`, and its size is the current size. It has a partition exactly when the memory manager grants one, and the memory state becomes the manager's answer. The created or memory-full line does not move the clock, and the snapshot shows the child appended to the wait queue. |
| `Simulator.ForkFinish` | interrupts.cpp:92-96 | After the child, its memory is freed only if it got some. Exactly one 1-tick termination line follows. |
| `Simulator.ExecStart` | interrupts.cpp:99-119 | EXEC keeps the PID and parent and takes the new name and size. The new image holds a partition exactly when the memory manager, after freeing the old image, grants one to the renamed process. The memory state is that answer. On success the log gains the boilerplate, a 2-tick "EXEC successful" line and, one tick later, a load line of `size*15` ticks, and the clock ends `size*15 + 1` after the boilerplate. On failure it gains the boilerplate and a 1-tick "EXEC failed" line, and the clock stays at the boilerplate's time. The snapshot shows the new image and the current wait queue. |
| `Simulator.Loop` | interrupts.cpp:10-138 | A finished run never lowers the PID counter: every recursion level draws from the same counter and hands it back no smaller. |
| `Simulator.Simulate` | interrupts.cpp:10-137 | An empty trace returns empty logs and the starting time unchanged (lines 16-18 and 137). A finished call never lowers the PID counter. |
| `Simulator.Boot` | interrupts.cpp:155-179 | The root process is init with PID 0, no parent and size 1. It holds a partition exactly when the memory manager grants one, and a refusal does not stop the run. The trace runs from time 0 with PIDs counted from 1. An empty trace gives empty logs at time 0. |
| `SimulatorFacts.CpuOnlyTrace` | interrupts.cpp:24-26 | Each CPU(d) adds exactly one line, stamped with the clock at its start, and advances the clock by exactly d. A trace of bursts ends at the start time plus their sum. |
| `SimulatorFacts.ForkEvent` | interrupts.cpp:84-97 | The child runs only if it got memory, on its extracted trace and with an empty wait queue. The parent then continues after the parent index with its wait queue as it was before the FORK. |
| `SimulatorFacts.ExecEvent` | interrupts.cpp:121-133 | EXEC runs the loaded program's trace from its first line as the new image, with the current wait queue and one unit less fuel. A finished sub-run's logs are appended to this run's, and its clock, counter and memory become the result. A sub-run that does not finish is the result. |
| `SimulatorFacts.ExecEndsTrace` | interrupts.cpp:133 | Once the loop reaches an EXEC (with no FORK on the way), no later line of the trace matters: the run equals the run of the trace cut after the EXEC. |
| `SimulatorFacts.ClockNeverGoesBack` | interrupts.cpp:10-138 | With no negative burst or delay, a finished run never ends before its start time. This holds through forked children and loaded programs. |
| `SimulatorFacts.LogsOnlyGrow` | interrupts.cpp:10-138 | A finished run keeps both logs it started with as prefixes and never lowers the PID counter. Each event, forked child and loaded program only appends (lines 25, 30-36, 52-66, 89-95, 101-119 and 129-130). |
| `SimulatorFacts.PidsNeverReused` | interrupts.cpp:55-57 | The PID counter never decreases. The PIDs announced in the execution log strictly increase and come from the counter's range, so no PID is handed out twice at any recursion depth. |
| `SimulatorFacts.BootNeverReusesPids` | interrupts.cpp:155-179 | In the root run, which starts from init with PID 0, every announced child PID is above 0 and all of them are distinct. |
| `Scenarios.CpuThenSyscall` | interrupts.cpp:24-37 | `CPU,5; SYSCALL,1` with device 1 costing 4 yields four lines and ends 4 + 1 ticks after the boilerplate, which starts at time 5. |
| `Scenarios.ExecThenEndIfKeepsLines` | interrupts.cpp:76-80 | In `FORK; IF_CHILD; EXEC p; ENDIF; CPU,1; IF_PARENT; CPU,2`, the ENDIF after the kept EXEC turns keeping back on. The child trace is `EXEC p; CPU,1`, and the parent index is the IF_PARENT at line 5. |
| `Scenarios.ForkWithChildBurst` | interrupts.cpp:50-97 | A FORK whose child branch is `CPU,3` and whose child gets memory ends 3 + 1 ticks after the boilerplate. It logs four lines, moves the counter by 1 and frees the child's memory. |
| `Scenarios.ForkMemoryFull` | interrupts.cpp:59-97 | The same FORK when memory is full runs no child and frees nothing. It ends one tick after the boilerplate. |
| `Scenarios.NestedForkRepeats` | interrupts.cpp:72-82 | In a child trace whose FORK is at line 1 with no IF_PARENT after it, the loop returns to that FORK forever. |
| `Scenarios.NestedForkNeverFinishes` | interrupts.cpp:69-97 | A FORK nested in a child branch after a CPU line produces such a child trace, with the nested FORK at line 1. Once the outer child gets memory, the whole run never finishes, whatever the fuel. |
| `Scenarios.FirstLineForkFinishes` | interrupts.cpp:72-97 | In a child trace whose FORK is at line 0 with no IF_PARENT after it, resuming at line 1 is a step forward. The run finishes whatever the memory manager answers, even with no fuel. |
| `Scenarios.NestedForkFirstLineFinishes` | interrupts.cpp:69-97 | A FORK nested as the first line of a child branch lands at child line 0, and the whole run finishes with any fuel. Divergence needs the nested FORK to come later in the branch. |
| `Scenarios.ExecBeforeNestedForkExtracted` | interrupts.cpp:76-80 | In `FORK; IF_CHILD; EXEC p; FORK; IF_CHILD; CPU,1; IF_PARENT; ENDIF; IF_PARENT; ENDIF`, the kept EXEC turns keeping off, the nested IF_CHILD turns it back on, and the nested IF_PARENT ends the scan. The child trace is `EXEC p; CPU,1` and the parent index is 6. |
| `Scenarios.ExecBeforeNestedForkFinishes` | interrupts.cpp:69-133 | With an empty program `p` and any positive fuel, that trace runs to the end: the child's EXEC breaks out before the nested FORK, and the parent resumes after line 6, whether or not the child gets memory. |

## Left out

- `main` (interrupts.cpp:141-187): argument parsing, reading the trace file, listing the external files and writing the two output files. Only the root PCB and the first call are modelled (`Simulator.Boot`).
- Reading `<program>.txt` during EXEC (interrupts.cpp:121-124) is file I/O. It is the parameter `programTrace` of the environment.
- The bodies of `parse_trace`, `intr_boilerplate`, `allocate_memory`, `free_memory`, `get_size` and `print_PCB` live in `interrupts.hpp`, which is not part of this model. Traces are already-parsed `Event`s. The other helpers are environment parameters: the boilerplate only promises not to move the clock backwards, and allocation is first-fit or otherwise as the memory manager decides. A status snapshot is a structured `Snapshot` record instead of `print_PCB`'s text.
- Exact log text and `std::to_string` formatting are left out. Log lines are `(time, duration, description)` records, and the boilerplate's text is one record spanning the ticks it took.
- Machine integer widths are not modelled: the `int` clock, the `unsigned int` PID counter and `size * 15` are unbounded integers, so overflow is not represented.
- An out-of-range device number makes the source index `delays` unchecked. The model stops with the fatal outcome `BadDevice(n)` instead of reading out of bounds.
- BranchFacts.ExtractExecBranch: the exact child trace is stated only for a child branch with no marker before the EXEC and no IF_CHILD or ENDIF between it and the IF_PARENT. Other layouts, such as a nested `IF_CHILD … IF_PARENT … ENDIF` block before the EXEC, depend on how the flags toggle line by line. For every trace, `BranchFacts.ScanStopsAfterExec` still fixes the parent index once an EXEC is kept, and `Branch.ExtractChildLoop` equals `Scan` on every input.
- Simulator.Loop: termination is bought with fuel, and a run that needs more EXEC nesting or backward jumps than the fuel allows ends in `OutOfFuel` rather than running on.
- SimulatorFacts.ClockNeverGoesBack: assumes non-negative CPU bursts and device delays and a boilerplate that never moves the clock backwards; the source does not check any of these.

=== FILE: branch.dfy ===
/** Fork branch extraction: the scan a FORK runs over the rest of its trace
    to build the child's trace and to choose where the parent resumes. */
module Branch {
  import opened Trace

  /** State of the scan: the `skip` and `exec_flag` flags and the index of the
      last IF_PARENT seen (0 while none has been seen). */
  datatype Flags = Flags(skip: bool, execFlag: bool, parentIndex: nat)

  /** Flags at the FORK line where the scan starts. */
  const Start: Flags := Flags(true, false, 0)

  /** The scan from line `j` on, in state `f`: the lines it adds to the child
      trace, and the parent index it ends with. Lines are kept only while
      `skip` is off; IF_CHILD (while skipping) and ENDIF (while skipping) turn
      skipping off and are dropped; IF_PARENT turns it on, is recorded, and
      ends the scan once an EXEC has been kept; a kept EXEC turns skipping on. */
  function Scan(trace: seq<Event>, j: nat, f: Flags): (r: (seq<Event>, nat))
    requires j <= |trace|
    ensures |r.0| <= |trace| - j
    ensures r.1 == f.parentIndex || (j <= r.1 < |trace| && trace[r.1].IfParent?)
    decreases |trace| - j
  {
    if j == |trace| then ([], f.parentIndex)
    else
      var e := trace[j];
      if f.skip && e.IfChild? then Scan(trace, j + 1, f.(skip := false))
      else if e.IfParent? then
        if f.execFlag then ([], j)
        else Scan(trace, j + 1, f.(skip := true, parentIndex := j))
      else if f.skip && e.EndIf? then Scan(trace, j + 1, f.(skip := false))
      else if !f.skip && e.Exec? then
        var rest := Scan(trace, j + 1, f.(skip := true, execFlag := true));
        ([e] + rest.0, rest.1)
      else if !f.skip then
        var rest := Scan(trace, j + 1, f);
        ([e] + rest.0, rest.1)
      else Scan(trace, j + 1, f)
  }

  /** The child trace and parent index of the FORK at line `i`. The child
      trace is strictly shorter than the lines from the FORK on; the parent
      index is 0 or the position of an IF_PARENT after the FORK. */
  function ExtractChild(trace: seq<Event>, i: nat): (r: (seq<Event>, nat))
    requires i < |trace| && trace[i].Fork?
    ensures |r.0| < |trace| - i
    ensures r.1 == 0 || (i < r.1 < |trace| && trace[r.1].IfParent?)
  {
    Scan(trace, i, Start)
  }

  /** The extraction loop exactly as the simulator writes it, with its two
      flags, `continue` and `break`; it computes `ExtractChild`. */
  method ExtractChildLoop(trace: seq<Event>, i: nat) returns (child: seq<Event>, parentIndex: nat)
    requires i < |trace| && trace[i].Fork?
    ensures (child, parentIndex) == ExtractChild(trace, i)
  {
    child := [];
    var skip, execFlag := true, false;
    parentIndex := 0;
    var j := i;
    while j < |trace|
      invariant i <= j <= |trace|
      invariant child + Scan(trace, j, Flags(skip, execFlag, parentIndex)).0 == ExtractChild(trace, i).0
      invariant Scan(trace, j, Flags(skip, execFlag, parentIndex)).1 == ExtractChild(trace, i).1
    {
      var e := trace[j];
      ghost var f := Flags(skip, execFlag, parentIndex);
      ghost var before := child;
      if skip && e.IfChild? {
        skip := false;
        j := j + 1;
        continue;
      } else if e.IfParent? {
        skip := true;
        parentIndex := j;
        if execFlag {
          assert Scan(trace, j, f) == ([], j);
          assert child + [] == child;
          break;
        }
      } else if skip && e.EndIf? {
        skip := false;
        j := j + 1;
        continue;
      } else if !skip && e.Exec? {
        skip := true;
        child := child + [e];
        execFlag := true;
      }
      if !skip {
        child := child + [e];
      }
      ghost var g := Flags(skip, execFlag, parentIndex);
      assert Scan(trace, j, f).1 == Scan(trace, j + 1, g).1;
      assert before + Scan(trace, j, f).0 == child + Scan(trace, j + 1, g).0 by {
        if child != before {
          assert child == before + [e];
          assert Scan(trace, j, f).0 == [e] + Scan(trace, j + 1, g).0;
        }
      }
      j := j + 1;
    }
    if j == |trace| {
      assert child + [] == child;
    }
  }
}

=== FILE: branch_facts.dfy ===
/** Properties of fork branch extraction. */
module BranchFacts {
  import opened Trace
  import opened Branch

  /** `a` is `b` with some elements deleted and the rest kept in order. */
  ghost predicate IsSubsequence<T>(a: seq<T>, b: seq<T>)
    decreases |b|
  {
    a == [] || (b != [] && ((a[0] == b[0] && IsSubsequence(a[1..], b[1..])) || IsSubsequence(a, b[1..])))
  }

  /** A subsequence is no longer than the sequence and holds only its elements. */
  lemma {:induction false} SubsequenceMembers<T>(a: seq<T>, b: seq<T>)
    requires IsSubsequence(a, b)
    ensures |a| <= |b|
    ensures forall x :: x in a ==> x in b
    decreases |b|
  {
    if a != [] {
      if a[0] == b[0] && IsSubsequence(a[1..], b[1..]) {
        SubsequenceMembers(a[1..], b[1..]);
        assert forall x :: x in a ==> x == a[0] || x in a[1..];
        assert forall x :: x in b[1..] ==> x in b;
      } else {
        SubsequenceMembers(a, b[1..]);
        assert forall x :: x in b[1..] ==> x in b;
      }
    }
  }

  /** The lines a scan keeps are a subsequence of the lines it scans. */
  lemma {:induction false} ScanSubsequence(trace: seq<Event>, j: nat, f: Flags)
    requires j <= |trace|
    ensures IsSubsequence(Scan(trace, j, f).0, trace[j..])
    decreases |trace| - j
  {
    if j < |trace| {
      var e := trace[j];
      assert trace[j..][0] == e && trace[j..][1..] == trace[j + 1..];
      if f.skip && e.IfChild? {
        ScanSubsequence(trace, j + 1, f.(skip := false));
      } else if e.IfParent? {
        if !f.execFlag {
          ScanSubsequence(trace, j + 1, f.(skip := true, parentIndex := j));
        }
      } else if f.skip && e.EndIf? {
        ScanSubsequence(trace, j + 1, f.(skip := false));
      } else if !f.skip && e.Exec? {
        var g := f.(skip := true, execFlag := true);
        ScanSubsequence(trace, j + 1, g);
        assert ([e] + Scan(trace, j + 1, g).0)[1..] == Scan(trace, j + 1, g).0;
      } else if !f.skip {
        ScanSubsequence(trace, j + 1, f);
        assert ([e] + Scan(trace, j + 1, f).0)[1..] == Scan(trace, j + 1, f).0;
      } else {
        ScanSubsequence(trace, j + 1, f);
      }
    }
  }

  /** The child trace of the FORK at `i` is a subsequence of the lines after
      the FORK (the FORK line itself is never kept), hence strictly shorter
      than the trace and made only of the trace's own lines. */
  lemma ChildIsSubsequence(trace: seq<Event>, i: nat)
    requires i < |trace| && trace[i].Fork?
    ensures IsSubsequence(ExtractChild(trace, i).0, trace[i + 1..])
    ensures |ExtractChild(trace, i).0| < |trace|
    ensures forall e :: e in ExtractChild(trace, i).0 ==> e in trace
  {
    assert ExtractChild(trace, i) == Scan(trace, i + 1, Start);
    ScanSubsequence(trace, i + 1, Start);
    SubsequenceMembers(ExtractChild(trace, i).0, trace[i + 1..]);
    assert forall e :: e in trace[i + 1..] ==> e in trace;
  }

  /** A scan never keeps an IF_PARENT line. */
  lemma {:induction false} ScanDropsIfParent(trace: seq<Event>, j: nat, f: Flags)
    requires j <= |trace|
    ensures forall k :: 0 <= k < |Scan(trace, j, f).0| ==> !Scan(trace, j, f).0[k].IfParent?
    decreases |trace| - j
  {
    if j < |trace| {
      var e := trace[j];
      if f.skip && e.IfChild? {
        ScanDropsIfParent(trace, j + 1, f.(skip := false));
      } else if e.IfParent? {
        if !f.execFlag {
          ScanDropsIfParent(trace, j + 1, f.(skip := true, parentIndex := j));
        }
      } else if f.skip && e.EndIf? {
        ScanDropsIfParent(trace, j + 1, f.(skip := false));
      } else if !f.skip && e.Exec? {
        ScanDropsIfParent(trace, j + 1, f.(skip := true, execFlag := true));
      } else {
        ScanDropsIfParent(trace, j + 1, f);
      }
    }
  }

  /** The child trace never contains an IF_PARENT line. */
  lemma ChildHasNoIfParent(trace: seq<Event>, i: nat)
    requires i < |trace| && trace[i].Fork?
    ensures forall k :: 0 <= k < |ExtractChild(trace, i).0| ==> !ExtractChild(trace, i).0[k].IfParent?
  {
    ScanDropsIfParent(trace, i, Start);
  }

  /** A scan that meets an IF_PARENT ends with the position of an IF_PARENT it met. */
  lemma {:induction false} ScanFindsIfParent(trace: seq<Event>, j: nat, f: Flags, k: nat)
    requires j <= k < |trace| && trace[k].IfParent?
    ensures j <= Scan(trace, j, f).1 < |trace| && trace[Scan(trace, j, f).1].IfParent?
    decreases |trace| - j
  {
    var e := trace[j];
    if f.skip && e.IfChild? {
      ScanFindsIfParent(trace, j + 1, f.(skip := false), k);
    } else if e.IfParent? {
    } else if f.skip && e.EndIf? {
      ScanFindsIfParent(trace, j + 1, f.(skip := false), k);
    } else if !f.skip && e.Exec? {
      ScanFindsIfParent(trace, j + 1, f.(skip := true, execFlag := true), k);
    } else {
      ScanFindsIfParent(trace, j + 1, f, k);
    }
  }

  /** The parent index stays 0 exactly when no IF_PARENT follows the FORK. */
  lemma ParentIndexZeroIff(trace: seq<Event>, i: nat)
    requires i < |trace| && trace[i].Fork?
    ensures ExtractChild(trace, i).1 == 0 <==> forall k :: i < k < |trace| ==> !trace[k].IfParent?
  {
    if exists k :: i < k < |trace| && trace[k].IfParent? {
      var k :| i < k < |trace| && trace[k].IfParent?;
      ScanFindsIfParent(trace, i, Start, k);
    }
  }

  /** While no EXEC has been kept, the scan runs on and ends with the last
      IF_PARENT it passes. */
  lemma {:induction false} ScanEndsAtLastIfParent(trace: seq<Event>, j: nat, f: Flags)
    requires j <= |trace| && !f.execFlag
    ensures ExecFree(Scan(trace, j, f).0) ==>
              forall k :: j <= k < |trace| && trace[k].IfParent? ==> k <= Scan(trace, j, f).1
    decreases |trace| - j
  {
    if j < |trace| {
      var e := trace[j];
      if f.skip && e.IfChild? {
        ScanEndsAtLastIfParent(trace, j + 1, f.(skip := false));
      } else if e.IfParent? {
        ScanEndsAtLastIfParent(trace, j + 1, f.(skip := true, parentIndex := j));
      } else if f.skip && e.EndIf? {
        ScanEndsAtLastIfParent(trace, j + 1, f.(skip := false));
      } else if !f.skip && e.Exec? {
        assert Scan(trace, j, f).0[0] == e;
      } else if !f.skip {
        var rest := Scan(trace, j + 1, f).0;
        if ExecFree(Scan(trace, j, f).0) {
          forall k | 0 <= k < |rest|
            ensures !rest[k].Exec?
          {
            assert rest[k] == Scan(trace, j, f).0[k + 1];
          }
        }
        ScanEndsAtLastIfParent(trace, j + 1, f);
      } else {
        ScanEndsAtLastIfParent(trace, j + 1, f);
      }
    }
  }

  /** When the child trace holds no EXEC, the parent resumes at the last
      IF_PARENT after the FORK (and at 0 when there is none). */
  lemma ParentIndexIsLastIfParent(trace: seq<Event>, i: nat)
    requires i < |trace| && trace[i].Fork?
    requires ExecFree(ExtractChild(trace, i).0)
    ensures forall k :: i < k < |trace| && trace[k].IfParent? ==> k <= ExtractChild(trace, i).1
  {
    ScanEndsAtLastIfParent(trace, i, Start);
  }

  /** Over lines that are neither markers nor EXECs the flags do not change,
      and the lines are kept exactly when skipping is off. */
  lemma {:induction false} ScanPlainRun(trace: seq<Event>, j: nat, f: Flags, n: nat)
    requires j + n <= |trace|
    requires forall m :: j <= m < j + n ==> !IsMarker(trace[m]) && !trace[m].Exec?
    ensures Scan(trace, j, f)
         == ((if f.skip then [] else trace[j..j + n]) + Scan(trace, j + n, f).0, Scan(trace, j + n, f).1)
    decreases n
  {
    if n == 0 {
      assert trace[j..j] == [];
      assert [] + Scan(trace, j, f).0 == Scan(trace, j, f).0;
    } else {
      ScanPlainRun(trace, j + 1, f, n - 1);
      var rest := Scan(trace, j + n, f);
      if f.skip {
        assert Scan(trace, j, f) == Scan(trace, j + 1, f);
      } else {
        assert Scan(trace, j, f).0 == [trace[j]] + (trace[j + 1..j + n] + rest.0);
        assert trace[j..j + n] == [trace[j]] + trace[j + 1..j + n];
        assert [trace[j]] + (trace[j + 1..j + n] + rest.0) == ([trace[j]] + trace[j + 1..j + n]) + rest.0;
      }
    }
  }

  /** While skipping, lines that are not markers (EXEC included) are passed over. */
  lemma {:induction false} ScanSkipRun(trace: seq<Event>, j: nat, f: Flags, n: nat)
    requires f.skip && j + n <= |trace|
    requires forall m :: j <= m < j + n ==> !IsMarker(trace[m])
    ensures Scan(trace, j, f) == Scan(trace, j + n, f)
    decreases n
  {
    if n > 0 {
      ScanSkipRun(trace, j + 1, f, n - 1);
    }
  }

  /** The lines `s` occur in `trace` from line `j` on. */
  predicate Occurs(trace: seq<Event>, j: nat, s: seq<Event>) {
    j + |s| <= |trace| && forall m :: 0 <= m < |s| ==> trace[j + m] == s[m]
  }

  /** A plain segment `s` at line `j` is kept whole while skipping is off. */
  lemma ScanKeeps(trace: seq<Event>, j: nat, f: Flags, s: seq<Event>)
    requires !f.skip && Occurs(trace, j, s) && Plain(s)
    ensures Scan(trace, j, f) == (s + Scan(trace, j + |s|, f).0, Scan(trace, j + |s|, f).1)
  {
    assert forall m :: j <= m < j + |s| ==> trace[m] == s[m - j];
    ScanPlainRun(trace, j, f, |s|);
    assert trace[j..j + |s|] == s;
  }

  /** A marker-free segment `s` at line `j` is passed over while skipping. */
  lemma ScanSkips(trace: seq<Event>, j: nat, f: Flags, s: seq<Event>)
    requires f.skip && Occurs(trace, j, s) && MarkerFree(s)
    ensures Scan(trace, j, f) == Scan(trace, j + |s|, f)
  {
    assert forall m :: j <= m < j + |s| ==> trace[m] == s[m - j];
    ScanSkipRun(trace, j, f, |s|);
  }

  /** The scan from a FORK at `i` followed by IF_CHILD and the plain child
      branch `c` keeps `c` and goes on after it with skipping off. */
  lemma ScanChildBranch(trace: seq<Event>, i: nat, c: seq<Event>)
    requires i + 2 <= |trace| && trace[i] == Fork && trace[i + 1] == IfChild
    requires Occurs(trace, i + 2, c) && Plain(c)
    ensures var f0 := Flags(false, false, 0);
            Scan(trace, i, Start) == (c + Scan(trace, i + 2 + |c|, f0).0, Scan(trace, i + 2 + |c|, f0).1)
  {
    var f0 := Flags(false, false, 0);
    assert Scan(trace, i, Start) == Scan(trace, i + 2, f0);
    ScanKeeps(trace, i + 2, f0, c);
  }

  /** IF_PARENT at `b`, then the marker-free parent branch `p`, then ENDIF:
      the scan records `b`, passes over `p`, and turns skipping off again. */
  lemma ScanParentBranch(trace: seq<Event>, b: nat, p: seq<Event>, f: Flags)
    requires b + 2 + |p| <= |trace| && trace[b] == IfParent && trace[b + 1 + |p|] == EndIf
    requires Occurs(trace, b + 1, p) && MarkerFree(p)
    requires !f.skip && !f.execFlag
    ensures Scan(trace, b, f) == Scan(trace, b + 2 + |p|, Flags(false, false, b))
  {
    var f1 := Flags(true, false, b);
    assert Scan(trace, b, f) == Scan(trace, b + 1, f1);
    ScanSkips(trace, b + 1, f1, p);
  }

  /** `ExtractBothBranches` for a trace already known to have that layout. */
  lemma ScanBothBranches(trace: seq<Event>, i: nat, c: seq<Event>, p: seq<Event>, rest: seq<Event>)
    requires Plain(c) && MarkerFree(p) && Plain(rest)
    requires var b := i + 2 + |c|;
             var d := b + 1 + |p|;
             && |trace| == d + 1 + |rest|
             && trace[i] == Fork && trace[i + 1] == IfChild && trace[b] == IfParent && trace[d] == EndIf
             && Occurs(trace, i + 2, c) && Occurs(trace, b + 1, p) && Occurs(trace, d + 1, rest)
    ensures ExtractChild(trace, i) == (c + rest, i + 2 + |c|)
  {
    var b := i + 2 + |c|;
    var d := b + 1 + |p|;
    var f2 := Flags(false, false, b);
    ScanChildBranch(trace, i, c);
    ScanParentBranch(trace, b, p, Flags(false, false, 0));
    ScanKeeps(trace, d + 1, f2, rest);
    assert Scan(trace, |trace|, f2) == ([], b);
    assert rest + [] == rest;
  }

  /** A FORK with both branches: child branch `c`, parent branch `p`, and the
      lines `rest` after ENDIF, which both processes go on to run. The child
      runs `c` followed by `rest`; the parent resumes at the IF_PARENT. */
  lemma ExtractBothBranches(pre: seq<Event>, c: seq<Event>, p: seq<Event>, rest: seq<Event>)
    requires Plain(c) && MarkerFree(p) && Plain(rest)
    ensures var trace := pre + [Fork, IfChild] + c + [IfParent] + p + [EndIf] + rest;
            ExtractChild(trace, |pre|) == (c + rest, |pre| + 2 + |c|)
  {
    var trace := pre + [Fork, IfChild] + c + [IfParent] + p + [EndIf] + rest;
    var i := |pre|;
    var b := i + 2 + |c|;
    var d := b + 1 + |p|;
    assert trace[i] == Fork && trace[i + 1] == IfChild && trace[b] == IfParent && trace[d] == EndIf;
    assert Occurs(trace, i + 2, c);
    assert Occurs(trace, b + 1, p);
    assert Occurs(trace, d + 1, rest);
    ScanBothBranches(trace, i, c, p, rest);
  }

  /** Once an EXEC has been kept, the scan ends at the next IF_PARENT,
      whatever markers, FORKs or EXECs come before it: that IF_PARENT is the
      parent index, and no line after it can reach the child trace. */
  lemma {:induction false} ScanStopsAfterExec(trace: seq<Event>, j: nat, f: Flags, k: nat)
    requires f.execFlag && j <= k < |trace| && trace[k].IfParent?
    requires forall m :: j <= m < k ==> !trace[m].IfParent?
    ensures Scan(trace, j, f).1 == k
    ensures Scan(trace, j, f) == Scan(trace[..k + 1], j, f)
    decreases k - j
  {
    assert trace[..k + 1][j] == trace[j];
    if j < k {
      var e := trace[j];
      if f.skip && e.IfChild? {
        ScanStopsAfterExec(trace, j + 1, f.(skip := false), k);
      } else if f.skip && e.EndIf? {
        ScanStopsAfterExec(trace, j + 1, f.(skip := false), k);
      } else if !f.skip && e.Exec? {
        ScanStopsAfterExec(trace, j + 1, f.(skip := true, execFlag := true), k);
      } else {
        ScanStopsAfterExec(trace, j + 1, f, k);
      }
    }
  }

  /** `ExecBranchParentIndex` for a trace already known to have that layout. */
  lemma ScanExecParentIndex(trace: seq<Event>, i: nat, c: seq<Event>, program: string, between: seq<Event>)
    requires Plain(c)
    requires var x := i + 2 + |c|;
             var y := x + 1 + |between|;
             && y < |trace|
             && trace[i] == Fork && trace[i + 1] == IfChild && trace[x] == Exec(program) && trace[y] == IfParent
             && Occurs(trace, i + 2, c) && forall m :: x + 1 <= m < y ==> !trace[m].IfParent?
    ensures ExtractChild(trace, i).1 == i + 3 + |c| + |between|
  {
    var x := i + 2 + |c|;
    var fe := Flags(true, true, 0);
    ScanChildBranch(trace, i, c);
    assert Scan(trace, x, Flags(false, false, 0)).1 == Scan(trace, x + 1, fe).1;
    ScanStopsAfterExec(trace, x + 1, fe, x + 1 + |between|);
  }

  /** With a plain child branch up to an EXEC, the parent index is the first
      IF_PARENT after the EXEC, even when IF_CHILD or ENDIF lines lie between
      them (those only decide which of the lines in between are kept). */
  lemma ExecBranchParentIndex(pre: seq<Event>, c: seq<Event>, program: string, between: seq<Event>, rest: seq<Event>)
    requires Plain(c) && forall m :: 0 <= m < |between| ==> !between[m].IfParent?
    ensures var trace := pre + [Fork, IfChild] + c + [Exec(program)] + between + [IfParent] + rest;
            ExtractChild(trace, |pre|).1 == |pre| + 3 + |c| + |between|
  {
    var trace := pre + [Fork, IfChild] + c + [Exec(program)] + between + [IfParent] + rest;
    var i := |pre|;
    var x := i + 2 + |c|;
    var y := x + 1 + |between|;
    assert trace[i] == Fork && trace[i + 1] == IfChild && trace[x] == Exec(program) && trace[y] == IfParent;
    assert Occurs(trace, i + 2, c);
    assert forall m :: x + 1 <= m < y ==> trace[m] == between[m - x - 1];
    ScanExecParentIndex(trace, i, c, program, between);
  }

  /** `ExtractExecBranch` for a trace already known to have that layout. */
  lemma ScanExecBranch(trace: seq<Event>, i: nat, c: seq<Event>, program: string, skipped: seq<Event>)
    requires Plain(c) && MarkerFree(skipped)
    requires var x := i + 2 + |c|;
             var y := x + 1 + |skipped|;
             && y < |trace|
             && trace[i] == Fork && trace[i + 1] == IfChild && trace[x] == Exec(program) && trace[y] == IfParent
             && Occurs(trace, i + 2, c) && Occurs(trace, x + 1, skipped)
    ensures ExtractChild(trace, i) == (c + [Exec(program)], i + 3 + |c| + |skipped|)
  {
    var x := i + 2 + |c|;
    var y := x + 1 + |skipped|;
    var fe := Flags(true, true, 0);
    ScanChildBranch(trace, i, c);
    assert Scan(trace, x, Flags(false, false, 0)) == ([Exec(program)] + Scan(trace, x + 1, fe).0, Scan(trace, x + 1, fe).1);
    ScanSkips(trace, x + 1, fe, skipped);
    assert Scan(trace, y, fe) == ([], y);
    assert c + ([Exec(program)] + []) == c + [Exec(program)];
  }

  /** A FORK whose child branch reaches an EXEC: the child trace ends with
      that EXEC, kept once, and the scan stops at the first IF_PARENT after
      it, whatever follows. */
  lemma ExtractExecBranch(pre: seq<Event>, c: seq<Event>, program: string, skipped: seq<Event>, rest: seq<Event>)
    requires Plain(c) && MarkerFree(skipped)
    ensures var trace := pre + [Fork, IfChild] + c + [Exec(program)] + skipped + [IfParent] + rest;
            ExtractChild(trace, |pre|) == (c + [Exec(program)], |pre| + 3 + |c| + |skipped|)
  {
    var trace := pre + [Fork, IfChild] + c + [Exec(program)] + skipped + [IfParent] + rest;
    var i := |pre|;
    var x := i + 2 + |c|;
    var y := x + 1 + |skipped|;
    assert trace[i] == Fork && trace[i + 1] == IfChild && trace[x] == Exec(program) && trace[y] == IfParent;
    assert Occurs(trace, i + 2, c);
    assert Occurs(trace, x + 1, skipped);
    ScanExecBranch(trace, i, c, program, skipped);
  }

  /** `ExtractWithoutParentBranch` for a trace already known to have that layout. */
  lemma ScanWithoutParentBranch(trace: seq<Event>, i: nat, c: seq<Event>, rest: seq<Event>)
    requires Plain(c) && Plain(rest)
    requires var b := i + 2 + |c|;
             && |trace| == b + 1 + |rest|
             && trace[i] == Fork && trace[i + 1] == IfChild && trace[b] == EndIf
             && Occurs(trace, i + 2, c) && Occurs(trace, b + 1, rest)
    ensures ExtractChild(trace, i) == (c + [EndIf] + rest, 0)
  {
    var b := i + 2 + |c|;
    var f0 := Flags(false, false, 0);
    ScanChildBranch(trace, i, c);
    assert Scan(trace, b, f0) == ([EndIf] + Scan(trace, b + 1, f0).0, Scan(trace, b + 1, f0).1);
    ScanKeeps(trace, b + 1, f0, rest);
    assert Scan(trace, |trace|, f0) == ([], 0);
    assert c + ([EndIf] + (rest + [])) == c + [EndIf] + rest;
  }

  /** A FORK with a child branch but no IF_PARENT: the ENDIF is kept in the
      child trace together with everything after it, and the parent index
      stays 0. */
  lemma ExtractWithoutParentBranch(pre: seq<Event>, c: seq<Event>, rest: seq<Event>)
    requires Plain(c) && Plain(rest)
    ensures var trace := pre + [Fork, IfChild] + c + [EndIf] + rest;
            ExtractChild(trace, |pre|) == (c + [EndIf] + rest, 0)
  {
    var trace := pre + [Fork, IfChild] + c + [EndIf] + rest;
    var i := |pre|;
    var b := i + 2 + |c|;
    assert trace[i] == Fork && trace[i + 1] == IfChild && trace[b] == EndIf;
    assert Occurs(trace, i + 2, c);
    assert Occurs(trace, b + 1, rest);
    ScanWithoutParentBranch(trace, i, c, rest);
  }
}

=== FILE: platform.dfy ===
/** The simulator's collaborators whose code is not part of this model:
    the interrupt boilerplate, the memory manager, the program-size table and
    the loader of a program's trace. They are parameters of the simulation,
    constrained only by what the simulator relies on. */
module Platform {
  import opened Trace
  import opened Process

  /** Answer of the memory manager to an allocation request: a partition and
      the new memory state, or a refusal. */
  datatype Grant<M> = Granted(partition: nat, mem: M) | Refused(mem: M)

  /** The environment of one simulation run, `M` being the memory manager's state. */
  datatype Env<!M> = Env(
    vectors: seq<string>,                                 // ISR address per interrupt number
    delays: seq<int>,                                     // service time per device
    dispatch: (int, int, int, seq<string>) -> (string, int),
                                                          // (time, interrupt, context-save time, vectors)
                                                          //   -> (log fragment, time after dispatch)
    allocate: (M, Pcb) -> Grant<M>,
    free: (M, Pcb) -> M,
    sizeOf: string -> nat,                                // memory size of a program
    programTrace: string -> seq<Event>                    // the trace of a program loaded by EXEC
  )

  /** The only promise made about the interrupt boilerplate: it never moves
      the clock backwards. */
  ghost predicate ValidEnv<M>(env: Env<M>) {
    forall t, n, c, v :: env.dispatch(t, n, c, v).1 >= t
  }

  /** Context-save time every dispatch in the simulator is given. */
  const ContextSaveTime: int := 10

  /** Interrupt boilerplate for interrupt number `n` at time `t`. */
  function Dispatch<M>(env: Env<M>, t: int, n: int): (res: (string, int))
    ensures ValidEnv(env) ==> res.1 >= t
  {
    env.dispatch(t, n, ContextSaveTime, env.vectors)
  }

  /** Asks the memory manager for a partition for `p`, which holds none.
      Either the process gets a partition and the answer is true, or it keeps
      none and the answer is false; nothing else of the process changes. */
  function Allocate<M>(env: Env<M>, mem: M, p: Pcb): (res: (Pcb, M, bool))
    requires p.partition == NoPartition
    ensures res.2 <==> res.0.partition != NoPartition
    ensures res.2 <==> env.allocate(mem, p).Granted?
    ensures res.0 == p.(partition := res.0.partition)
    ensures res.1 == env.allocate(mem, p).mem
  {
    match env.allocate(mem, p)
    case Granted(k, m) => (p.(partition := k), m, true)
    case Refused(m) => (p, m, false)
  }

  /** Returns the partition of `p` to the memory manager; `p` is left without one. */
  function Release<M>(env: Env<M>, mem: M, p: Pcb): (res: (Pcb, M))
    ensures res.0 == p.(partition := NoPartition)
    ensures res.1 == env.free(mem, p)
  {
    (p.(partition := NoPartition), env.free(mem, p))
  }
}

=== FILE: process.dfy ===
/** Process control blocks, status snapshots and execution-log records. */
module Process {

  /** Partition number of a process that holds no memory. */
  const NoPartition: int := -1

  /** A process control block. */
  datatype Pcb = Pcb(pid: int, parent: int, name: string, size: nat, partition: int)

  /** The process the simulator starts with: PID 0, no parent, program "init"
      of size 1, no partition assigned yet. */
  function RootPcb(): (p: Pcb) {
    Pcb(0, -1, "init", 1, NoPartition)
  }

  /** One entry of the system-status log: the running process and the
      wait queue at the moment of the snapshot. */
  datatype Snapshot = Snapshot(current: Pcb, waitQueue: seq<Pcb>)

  datatype IsrKind = SyscallIsr | EndIoIsr

  /** What an execution-log line says. */
  datatype Label =
    | Boilerplate(fragment: string)  // the lines produced by the interrupt boilerplate
    | CpuBurst
    | IsrExecuted(kind: IsrKind)
    | Iret
    | MemoryFull                     // a FORK whose child could not get memory
    | ChildCreated(pid: int)
    | ChildTerminated
    | ExecFailed                     // an EXEC whose new image could not get memory
    | ExecLoaded(program: string)
    | LoadingProgram

  /** One line of the execution log: `time, duration, description`. */
  datatype Record = Record(time: int, duration: int, description: Label)
}

=== FILE: scenarios.dfy ===
/** Whole runs of small traces, worked out from the interpreter. */
module Scenarios {
  import opened Trace
  import opened Process
  import opened Platform
  import opened Branch
  import opened BranchFacts
  import opened Simulator

  /** `CPU,5` then `SYSCALL,1` with device 1 costing 4 ticks, from time 0:
      four log lines, and the clock ends 5 ticks after the boilerplate (the
      ISR's 4 and the IRET's 1), which itself starts at time 5. */
  lemma CpuThenSyscall<M>(env: Env<M>, cur: Pcb, wq: seq<Pcb>, nextPid: nat, mem: M, fuel: nat)
    requires |env.delays| > 1 && env.delays[1] == 4
    ensures var o := Simulate(env, [Cpu(5), Syscall(1)], 0, cur, wq, nextPid, mem, fuel);
            && o.Finished?
            && o.run.clock == Dispatch(env, 5, 1).1 + 4 + 1
            && |o.run.exec| == 4
            && o.run.exec[0] == Record(0, 5, CpuBurst)
            && o.run.exec[2] == Record(Dispatch(env, 5, 1).1, 4, IsrExecuted(SyscallIsr))
            && o.run.exec[3] == Record(Dispatch(env, 5, 1).1 + 4, 1, Iret)
  {
    var trace := [Cpu(5), Syscall(1)];
    var r0 := Run([], [], 0, nextPid, mem);
    var r1 := Burst(r0, 5);
    var r2 := Interrupt(env, r1, 1, SyscallIsr);
    assert Loop(env, trace, 0, cur, wq, r0, fuel) == Loop(env, trace, 1, cur, wq, r1, fuel);
    assert Loop(env, trace, 1, cur, wq, r1, fuel) == Loop(env, trace, 2, cur, wq, r2, fuel);
  }

  lemma ForkBranchOfBurst()
    ensures ExtractChild([Fork, IfChild, Cpu(3), IfParent, EndIf], 0) == ([Cpu(3)], 3)
  {
    var trace := [Fork, IfChild, Cpu(3), IfParent, EndIf];
    assert trace == [] + [Fork, IfChild] + [Cpu(3)] + [IfParent] + [] + [EndIf] + [];
    ExtractBothBranches([], [Cpu(3)], [], []);
    assert [Cpu(3)] + [] == [Cpu(3)];
  }

  /** An ENDIF after a kept EXEC turns skipping off again, so the lines after
      it are kept too; the scan still ends at the next IF_PARENT. */
  lemma ExecThenEndIfKeepsLines()
    ensures ExtractChild([Fork, IfChild, Exec("p"), EndIf, Cpu(1), IfParent, Cpu(2)], 0) == ([Exec("p"), Cpu(1)], 5)
  {
    var trace := [Fork, IfChild, Exec("p"), EndIf, Cpu(1), IfParent, Cpu(2)];
    var fe := Flags(false, true, 0);
    assert Scan(trace, 5, fe) == ([], 5);
    var s4 := Scan(trace, 4, fe);
    assert s4 == ([trace[4]] + Scan(trace, 5, fe).0, 5);
    assert s4.0 == [Cpu(1)];
    assert Scan(trace, 3, Flags(true, true, 0)) == s4;
    var s2 := Scan(trace, 2, Flags(false, false, 0));
    assert s2 == ([trace[2]] + s4.0, 5);
    assert s2.0 == [Exec("p"), Cpu(1)];
  }

  /** The FORK of `FORK; IF_CHILD; CPU,3; IF_PARENT; ENDIF` when the child
      gets memory: the child runs its 3-tick burst right after the dispatch
      (the creation line takes no time), then one tick for the termination
      line; the PID counter moves by one and the child's memory is freed. */
  lemma ForkWithChildBurst<M>(env: Env<M>, cur: Pcb, wq: seq<Pcb>, r: Run<M>, fuel: nat)
    requires env.allocate(r.mem, Pcb(r.nextPid, cur.pid, cur.name + ChildSuffix, cur.size, NoPartition)).Granted?
    ensures var trace := [Fork, IfChild, Cpu(3), IfParent, EndIf];
            var t := Dispatch(env, r.clock, ForkInterrupt).1;
            var grant := env.allocate(r.mem, Pcb(r.nextPid, cur.pid, cur.name + ChildSuffix, cur.size, NoPartition));
            var child := Pcb(r.nextPid, cur.pid, cur.name + ChildSuffix, cur.size, grant.partition);
            var o := Loop(env, trace, 0, cur, wq, r, fuel);
            && o.Finished?
            && o.run.clock == t + 3 + 1
            && o.run.nextPid == r.nextPid + 1
            && |o.run.exec| == |r.exec| + 4
            && o.run.exec[|r.exec| + 1] == Record(t, 2, ChildCreated(r.nextPid))
            && o.run.exec[|r.exec| + 2] == Record(t, 3, CpuBurst)
            && o.run.exec[|r.exec| + 3] == Record(t + 3, 1, ChildTerminated)
            && o.run.status == r.status + [Snapshot(cur, wq + [child])]
            && o.run.mem == env.free(grant.mem, child)
  {
    var trace := [Fork, IfChild, Cpu(3), IfParent, EndIf];
    ForkBranchOfBurst();
    var (child, r1) := ForkStart(env, r, cur, wq);
    var sub := Loop(env, [Cpu(3)], 0, child, [], Fresh(r1), fuel);
    assert sub == Loop(env, [Cpu(3)], 1, child, [], Burst(Fresh(r1), 3), fuel);
    var r2 := ForkFinish(env, Splice(r1, sub.run), child);
    assert Loop(env, trace, 0, cur, wq, r, fuel) == Loop(env, trace, 4, cur, wq, r2, fuel);
  }

  /** The same FORK when the child gets no memory: the memory-full line, no
      child run, no memory freed, and still the one termination tick. */
  lemma ForkMemoryFull<M>(env: Env<M>, cur: Pcb, wq: seq<Pcb>, r: Run<M>, fuel: nat)
    requires env.allocate(r.mem, Pcb(r.nextPid, cur.pid, cur.name + ChildSuffix, cur.size, NoPartition)).Refused?
    ensures var trace := [Fork, IfChild, Cpu(3), IfParent, EndIf];
            var t := Dispatch(env, r.clock, ForkInterrupt).1;
            var grant := env.allocate(r.mem, Pcb(r.nextPid, cur.pid, cur.name + ChildSuffix, cur.size, NoPartition));
            var o := Loop(env, trace, 0, cur, wq, r, fuel);
            && o.Finished?
            && o.run.clock == t + 1
            && o.run.nextPid == r.nextPid + 1
            && |o.run.exec| == |r.exec| + 3
            && o.run.exec[|r.exec| + 1] == Record(t, 1, MemoryFull)
            && o.run.exec[|r.exec| + 2] == Record(t, 1, ChildTerminated)
            && o.run.mem == grant.mem
  {
    var trace := [Fork, IfChild, Cpu(3), IfParent, EndIf];
    ForkBranchOfBurst();
    var (child, r1) := ForkStart(env, r, cur, wq);
    var r2 := ForkFinish(env, Splice(r1, Fresh(r1)), child);
    assert Loop(env, trace, 0, cur, wq, r, fuel) == Loop(env, trace, 4, cur, wq, r2, fuel);
    assert Loop(env, trace, 4, cur, wq, r2, fuel) == Finished(r2);
  }

  /** The child trace of a FORK whose child branch holds a second FORK. */
  const NestedChild: seq<Event> := [Cpu(5), Fork, IfChild, Cpu(1)]

  /** The nested FORK at line 1 of that child trace finds no IF_PARENT (the
      outer scan dropped it), so its parent index is 0 and the loop goes back
      to line 1, the FORK itself: with any fuel the run never finishes. */
  lemma {:induction false} NestedForkRepeats<M>(env: Env<M>, cur: Pcb, wq: seq<Pcb>, r: Run<M>, fuel: nat)
    ensures Loop(env, NestedChild, 1, cur, wq, r, fuel) == OutOfFuel
    decreases fuel
  {
    var trace := NestedChild;
    assert Scan(trace, 4, Flags(false, false, 0)) == ([], 0);
    var s3 := Scan(trace, 3, Flags(false, false, 0));
    assert s3 == ([trace[3]] + Scan(trace, 4, Flags(false, false, 0)).0, 0);
    assert s3.0 == [Cpu(1)];
    assert Scan(trace, 2, Start) == s3;
    assert ExtractChild(trace, 1) == ([Cpu(1)], 0);
    var (child, r1) := ForkStart(env, r, cur, wq);
    var ran := if child.partition != NoPartition then Loop(env, [Cpu(1)], 0, child, [], Fresh(r1), fuel)
               else Finished(Fresh(r1));
    assert ran.Finished? by {
      if child.partition != NoPartition {
        assert ran == Loop(env, [Cpu(1)], 1, child, [], Burst(Fresh(r1), 1), fuel);
      }
    }
    var r2 := ForkFinish(env, Splice(r1, ran.run), child);
    var pushed := wq + [child];
    var popped := pushed[..|pushed| - 1];
    if fuel > 0 {
      NestedForkRepeats(env, cur, popped, r2, fuel - 1);
    }
  }

  /** A FORK whose child branch holds a second FORK: once the outer child
      gets memory, the simulation never finishes, whatever the fuel. */
  lemma NestedForkNeverFinishes<M>(env: Env<M>, cur: Pcb, wq: seq<Pcb>, r: Run<M>, fuel: nat)
    requires env.allocate(r.mem, Pcb(r.nextPid, cur.pid, cur.name + ChildSuffix, cur.size, NoPartition)).Granted?
    ensures var trace := [Fork, IfChild, Cpu(5), Fork, IfChild, Cpu(1), IfParent, EndIf, IfParent, EndIf];
            ExtractChild(trace, 0) == (NestedChild, 8)
            && Loop(env, trace, 0, cur, wq, r, fuel) == OutOfFuel
  {
    var trace := [Fork, IfChild, Cpu(5), Fork, IfChild, Cpu(1), IfParent, EndIf, IfParent, EndIf];
    assert Scan(trace, 9, Flags(true, false, 8)) == ([], 8);
    assert Scan(trace, 8, Flags(false, false, 6)) == ([], 8);
    assert Scan(trace, 7, Flags(true, false, 6)) == ([], 8);
    assert Scan(trace, 6, Flags(false, false, 0)) == ([], 8);
    var f := Flags(false, false, 0);
    var s5 := Scan(trace, 5, f);
    assert s5 == ([trace[5]] + Scan(trace, 6, f).0, 8);
    assert s5.0 == [Cpu(1)];
    var s4 := Scan(trace, 4, f);
    assert s4 == ([trace[4]] + s5.0, 8);
    assert s4.0 == [IfChild, Cpu(1)];
    var s3 := Scan(trace, 3, f);
    assert s3 == ([trace[3]] + s4.0, 8);
    assert s3.0 == [Fork, IfChild, Cpu(1)];
    var s2 := Scan(trace, 2, f);
    assert s2 == ([trace[2]] + s3.0, 8);
    assert s2.0 == NestedChild;
    assert ExtractChild(trace, 0) == (NestedChild, 8);
    var (child, r1) := ForkStart(env, r, cur, wq);
    NestedForkRepeats(env, child, [], Burst(Fresh(r1), 5), fuel);
    assert Loop(env, NestedChild, 0, child, [], Fresh(r1), fuel) == OutOfFuel;
  }

  /** The child trace of a FORK whose child branch starts with a second FORK. */
  const FirstLineChild: seq<Event> := [Fork, IfChild, Cpu(1)]

  /** A FORK on line 0 of a child trace also finds no IF_PARENT, but going on
      at line `0 + 1` is a step forward: the run finishes, whatever the
      memory manager answers and with no fuel at all. */
  lemma FirstLineForkFinishes<M>(env: Env<M>, cur: Pcb, wq: seq<Pcb>, r: Run<M>, fuel: nat)
    ensures Loop(env, FirstLineChild, 0, cur, wq, r, fuel).Finished?
  {
    var trace := FirstLineChild;
    assert Scan(trace, 3, Flags(false, false, 0)) == ([], 0);
    var s2 := Scan(trace, 2, Flags(false, false, 0));
    assert s2 == ([trace[2]] + Scan(trace, 3, Flags(false, false, 0)).0, 0);
    assert s2.0 == [Cpu(1)];
    assert ExtractChild(trace, 0) == ([Cpu(1)], 0);
    var (child, r1) := ForkStart(env, r, cur, wq);
    var ran := if child.partition != NoPartition then Loop(env, [Cpu(1)], 0, child, [], Fresh(r1), fuel)
               else Finished(Fresh(r1));
    assert ran.Finished? by {
      if child.partition != NoPartition {
        assert ran == Loop(env, [Cpu(1)], 1, child, [], Burst(Fresh(r1), 1), fuel);
      }
    }
    var r2 := ForkFinish(env, Splice(r1, ran.run), child);
    var pushed := wq + [child];
    var popped := pushed[..|pushed| - 1];
    assert Loop(env, trace, 1, cur, popped, r2, fuel) == Loop(env, trace, 3, cur, popped, Burst(r2, 1), fuel);
  }

  /** The outer scan of a FORK whose child branch starts with a second FORK. */
  lemma FirstLineChildExtracted()
    ensures ExtractChild([Fork, IfChild, Fork, IfChild, Cpu(1), IfParent, EndIf, IfParent, EndIf], 0) == (FirstLineChild, 7)
  {
    var trace := [Fork, IfChild, Fork, IfChild, Cpu(1), IfParent, EndIf, IfParent, EndIf];
    assert Scan(trace, 9, Flags(false, false, 7)) == ([], 7);
    assert Scan(trace, 8, Flags(true, false, 7)) == ([], 7);
    assert Scan(trace, 7, Flags(false, false, 5)) == ([], 7);
    assert Scan(trace, 6, Flags(true, false, 5)) == ([], 7);
    assert Scan(trace, 5, Flags(false, false, 0)) == ([], 7);
    var f := Flags(false, false, 0);
    var s4 := Scan(trace, 4, f);
    assert s4 == ([trace[4]] + Scan(trace, 5, f).0, 7);
    assert s4.0 == [Cpu(1)];
    var s3 := Scan(trace, 3, f);
    assert s3 == ([trace[3]] + s4.0, 7);
    assert s3.0 == [IfChild, Cpu(1)];
    var s2 := Scan(trace, 2, f);
    assert s2 == ([trace[2]] + s3.0, 7);
    assert s2.0 == FirstLineChild;
  }

  /** Divergence needs the nested FORK to be past the first line of the child
      branch: with the nested FORK first, the outer child trace is
      `FirstLineChild` and the whole run finishes, with any fuel. */
  lemma NestedForkFirstLineFinishes<M>(env: Env<M>, cur: Pcb, wq: seq<Pcb>, r: Run<M>, fuel: nat)
    ensures var trace := [Fork, IfChild, Fork, IfChild, Cpu(1), IfParent, EndIf, IfParent, EndIf];
            ExtractChild(trace, 0) == (FirstLineChild, 7)
            && Loop(env, trace, 0, cur, wq, r, fuel).Finished?
  {
    var trace := [Fork, IfChild, Fork, IfChild, Cpu(1), IfParent, EndIf, IfParent, EndIf];
    FirstLineChildExtracted();
    var (child, r1) := ForkStart(env, r, cur, wq);
    FirstLineForkFinishes(env, child, [], Fresh(r1), fuel);
    var ran := if child.partition != NoPartition then Loop(env, FirstLineChild, 0, child, [], Fresh(r1), fuel)
               else Finished(Fresh(r1));
    var r2 := ForkFinish(env, Splice(r1, ran.run), child);
    var pushed := wq + [child];
    var popped := pushed[..|pushed| - 1];
    assert Loop(env, trace, 0, cur, wq, r, fuel) == Loop(env, trace, 8, cur, popped, r2, fuel);
    assert Loop(env, trace, 8, cur, popped, r2, fuel) == Loop(env, trace, 9, cur, popped, r2, fuel);
  }

  /** The outer scan of a FORK whose child branch holds an EXEC and then a
      second FORK: the kept EXEC sets skip, the nested IF_CHILD clears it,
      and the nested IF_PARENT ends the scan. */
  lemma ExecBeforeNestedForkExtracted()
    ensures ExtractChild([Fork, IfChild, Exec("p"), Fork, IfChild, Cpu(1), IfParent, EndIf, IfParent, EndIf], 0)
            == ([Exec("p"), Cpu(1)], 6)
  {
    var trace := [Fork, IfChild, Exec("p"), Fork, IfChild, Cpu(1), IfParent, EndIf, IfParent, EndIf];
    var fe := Flags(true, true, 0);
    assert Scan(trace, 6, fe.(skip := false)) == ([], 6);
    var s5 := Scan(trace, 5, fe.(skip := false));
    assert s5 == ([trace[5]] + Scan(trace, 6, fe.(skip := false)).0, 6);
    assert s5.0 == [Cpu(1)];
    assert Scan(trace, 3, fe) == s5;
    var s2 := Scan(trace, 2, Flags(false, false, 0));
    assert s2 == ([trace[2]] + Scan(trace, 3, fe).0, 6);
    assert s2.0 == [Exec("p"), Cpu(1)];
  }

  /** An EXEC before the nested FORK ends the child before it reaches that
      FORK, so the run finishes: divergence needs the nested FORK to come
      after the first line of the child branch and after no EXEC. */
  lemma ExecBeforeNestedForkFinishes<M>(env: Env<M>, cur: Pcb, wq: seq<Pcb>, r: Run<M>, fuel: nat)
    requires env.programTrace("p") == [] && fuel > 0
    ensures var trace := [Fork, IfChild, Exec("p"), Fork, IfChild, Cpu(1), IfParent, EndIf, IfParent, EndIf];
            ExtractChild(trace, 0) == ([Exec("p"), Cpu(1)], 6)
            && Loop(env, trace, 0, cur, wq, r, fuel).Finished?
  {
    var trace := [Fork, IfChild, Exec("p"), Fork, IfChild, Cpu(1), IfParent, EndIf, IfParent, EndIf];
    var childTrace := [Exec("p"), Cpu(1)];
    ExecBeforeNestedForkExtracted();
    var (child, r1) := ForkStart(env, r, cur, wq);
    var ran := if child.partition != NoPartition then Loop(env, childTrace, 0, child, [], Fresh(r1), fuel)
               else Finished(Fresh(r1));
    assert ran.Finished? by {
      if child.partition != NoPartition {
        var (image, r3) := ExecStart(env, Fresh(r1), child, [], "p");
        assert Loop(env, [], 0, image, [], Fresh(r3), fuel - 1).Finished?;
      }
    }
    var r2 := ForkFinish(env, Splice(r1, ran.run), child);
    var pushed := wq + [child];
    var popped := pushed[..|pushed| - 1];
    assert Loop(env, trace, 0, cur, wq, r, fuel) == Loop(env, trace, 7, cur, popped, r2, fuel);
    assert Loop(env, trace, 7, cur, popped, r2, fuel) == Loop(env, trace, 8, cur, popped, r2, fuel);
    assert Loop(env, trace, 8, cur, popped, r2, fuel) == Loop(env, trace, 9, cur, popped, r2, fuel);
    assert Loop(env, trace, 9, cur, popped, r2, fuel) == Loop(env, trace, 10, cur, popped, r2, fuel);
  }
}

=== FILE: simulator.dfy ===
/** The trace interpreter: walks a trace, charges each event's cost to the
    clock, and recurses into a forked child's trace or an EXEC'd program's
    trace, splicing the sub-run's logs and clock back in. */
module Simulator {
  import opened Trace
  import opened Process
  import opened Platform
  import Branch

  /** Interrupt numbers handed to the boilerplate by FORK and by EXEC. */
  const ForkInterrupt: int := 2
  const ExecInterrupt: int := 3
  /** Ticks to load one unit of program size into memory. */
  const LoadTimePerUnit: int := 15
  /** Appended to the parent's program name to name a forked child. */
  const ChildSuffix: string := "_child"

  /** What a simulation has produced so far: both logs and the clock, plus the
      state shared by every recursion level (the next PID to hand out and
      the memory manager's state). */
  datatype Run<M> = Run(exec: seq<Record>, status: seq<Snapshot>, clock: int, nextPid: nat, mem: M)

  /** How a simulation ends: with its run; on a SYSCALL or END_IO naming a
      device outside the delay table (a fatal configuration error); or
      having exhausted its fuel (see `Loop`). */
  datatype Outcome<M> = Finished(run: Run<M>) | BadDevice(device: int) | OutOfFuel

  /** The start of a sub-simulation: empty logs, same clock and shared state. */
  function Fresh<M>(r: Run<M>): (r': Run<M>)
    ensures r'.exec == [] && r'.status == []
    ensures r'.clock == r.clock && r'.nextPid == r.nextPid && r'.mem == r.mem
  {
    Run([], [], r.clock, r.nextPid, r.mem)
  }

  /** Appends a finished sub-simulation's logs and takes over its clock and shared state. */
  function Splice<M>(r: Run<M>, sub: Run<M>): (r': Run<M>)
    ensures |r'.exec| == |r.exec| + |sub.exec| && r'.exec[..|r.exec|] == r.exec && r'.exec[|r.exec|..] == sub.exec
    ensures |r'.status| == |r.status| + |sub.status| && r'.status[..|r.status|] == r.status
  {
    Run(r.exec + sub.exec, r.status + sub.status, sub.clock, sub.nextPid, sub.mem)
  }

  /** CPU(d): one line stamped with the clock at the burst's start, and the
      clock moves by exactly `d`; nothing else changes. */
  function Burst<M>(r: Run<M>, d: int): (r': Run<M>)
    ensures r'.clock == r.clock + d
    ensures |r'.exec| == |r.exec| + 1 && r'.exec[..|r.exec|] == r.exec
    ensures r'.exec[|r.exec|] == Record(r.clock, d, CpuBurst)
    ensures r'.status == r.status && r'.nextPid == r.nextPid && r'.mem == r.mem
  {
    r.(exec := r.exec + [Record(r.clock, d, CpuBurst)], clock := r.clock + d)
  }

  /** SYSCALL(n) or END_IO(n): boilerplate, the ISR for `delays[n]` ticks, a
      1-tick IRET; the event ends `delays[n] + 1` ticks after the boilerplate,
      so never less than `delays[n] + 1` ticks after it started. */
  function Interrupt<M>(env: Env<M>, r: Run<M>, n: int, kind: IsrKind): (r': Run<M>)
    requires 0 <= n < |env.delays|
    ensures var t := Dispatch(env, r.clock, n).1;
            && r'.clock == t + env.delays[n] + 1
            && |r'.exec| == |r.exec| + 3 && r'.exec[..|r.exec|] == r.exec
            && r'.exec[|r.exec|].description.Boilerplate?
            && r'.exec[|r.exec| + 1] == Record(t, env.delays[n], IsrExecuted(kind))
            && r'.exec[|r.exec| + 2] == Record(t + env.delays[n], 1, Iret)
    ensures ValidEnv(env) ==> r'.clock >= r.clock + env.delays[n] + 1
    ensures r'.status == r.status && r'.nextPid == r.nextPid && r'.mem == r.mem
  {
    var (fragment, t) := Dispatch(env, r.clock, n);
    var d := env.delays[n];
    r.(exec := r.exec + [Record(r.clock, t - r.clock, Boilerplate(fragment)),
                         Record(t, d, IsrExecuted(kind)),
                         Record(t + d, 1, Iret)],
       clock := t + d + 1)
  }

  /** First half of FORK: boilerplate, a new child PCB with the next PID,
      its memory, the creation (or memory-full) line, and the snapshot
      with the child appended to the wait queue. The creation line does not
      move the clock. */
  function ForkStart<M>(env: Env<M>, r: Run<M>, cur: Pcb, wq: seq<Pcb>): (res: (Pcb, Run<M>))
    ensures var (child, r1) := res;
            && child.pid == r.nextPid && r1.nextPid == r.nextPid + 1
            && child.parent == cur.pid && child.name == cur.name + ChildSuffix && child.size == cur.size
            && (child.partition != NoPartition <==>
                  env.allocate(r.mem, Pcb(r.nextPid, cur.pid, cur.name + ChildSuffix, cur.size, NoPartition)).Granted?)
            && r1.clock == Dispatch(env, r.clock, ForkInterrupt).1
            && |r1.exec| == |r.exec| + 2 && r1.exec[..|r.exec|] == r.exec
            && r1.exec[|r.exec|].description.Boilerplate?
            && r1.exec[|r.exec| + 1] == (if child.partition != NoPartition then Record(r1.clock, 2, ChildCreated(child.pid))
                                         else Record(r1.clock, 1, MemoryFull))
            && r1.status == r.status + [Snapshot(cur, wq + [child])]
            && r1.mem == env.allocate(r.mem, Pcb(r.nextPid, cur.pid, cur.name + ChildSuffix, cur.size, NoPartition)).mem
  {
    var (fragment, t) := Dispatch(env, r.clock, ForkInterrupt);
    var (child, mem, ok) := Allocate(env, r.mem, Pcb(r.nextPid, cur.pid, cur.name + ChildSuffix, cur.size, NoPartition));
    var line := if ok then Record(t, 2, ChildCreated(child.pid)) else Record(t, 1, MemoryFull);
    (child, Run(r.exec + [Record(r.clock, t - r.clock, Boilerplate(fragment)), line],
                r.status + [Snapshot(cur, wq + [child])],
                t, r.nextPid + 1, mem))
  }

  /** Second half of FORK, after the child (if it got memory) has run: the
      child's memory is freed if it had any, and a 1-tick termination line. */
  function ForkFinish<M>(env: Env<M>, r: Run<M>, child: Pcb): (r': Run<M>)
    ensures r'.clock == r.clock + 1
    ensures r'.exec == r.exec + [Record(r.clock, 1, ChildTerminated)]
    ensures r'.mem == if child.partition != NoPartition then env.free(r.mem, child) else r.mem
    ensures r'.status == r.status && r'.nextPid == r.nextPid
  {
    var mem := if child.partition != NoPartition then Release(env, r.mem, child).1 else r.mem;
    r.(exec := r.exec + [Record(r.clock, 1, ChildTerminated)], clock := r.clock + 1, mem := mem)
  }

  /** First half of EXEC: boilerplate, the current process's memory freed, its
      name and size replaced (same PID), new memory requested for the renamed
      image; on success a 2-tick line and a load of `size * 15` ticks one tick
      later, on failure a 1-tick line; then a snapshot. */
  function ExecStart<M>(env: Env<M>, r: Run<M>, cur: Pcb, wq: seq<Pcb>, program: string): (res: (Pcb, Run<M>))
    ensures var (cur', r1) := res;
            var t := Dispatch(env, r.clock, ExecInterrupt).1;
            var image := cur.(name := program, size := env.sizeOf(program), partition := NoPartition);
            var grant := env.allocate(env.free(r.mem, cur), image);
            && cur' == image.(partition := cur'.partition)
            && (cur'.partition != NoPartition <==> grant.Granted?)
            && r1.mem == grant.mem
            && (grant.Granted? ==> r1.clock == t + cur'.size * LoadTimePerUnit + 1)
            && (grant.Refused? ==> r1.clock == t)
            && |r1.exec| == |r.exec| + (if grant.Granted? then 3 else 2) && r1.exec[..|r.exec|] == r.exec
            && r1.exec[|r.exec|].description.Boilerplate?
            && (grant.Granted? ==> && r1.exec[|r.exec| + 1] == Record(t, 2, ExecLoaded(program))
                                   && r1.exec[|r.exec| + 2] == Record(t + 1, cur'.size * LoadTimePerUnit, LoadingProgram))
            && (grant.Refused? ==> r1.exec[|r.exec| + 1] == Record(t, 1, ExecFailed))
            && r1.nextPid == r.nextPid
            && r1.status == r.status + [Snapshot(cur', wq)]
  {
    var (fragment, t) := Dispatch(env, r.clock, ExecInterrupt);
    var (freed, mem1) := Release(env, r.mem, cur);
    var (image, mem2, ok) := Allocate(env, mem1, freed.(name := program, size := env.sizeOf(program)));
    var load := image.size * LoadTimePerUnit;
    var lines := if ok then [Record(t, 2, ExecLoaded(program)), Record(t + 1, load, LoadingProgram)]
                 else [Record(t, 1, ExecFailed)];
    (image, Run(r.exec + [Record(r.clock, t - r.clock, Boilerplate(fragment))] + lines,
                r.status + [Snapshot(image, wq)],
                if ok then t + load + 1 else t,
                r.nextPid, mem2))
  }

  /** The interpreter's loop from line `i` of `trace`, running as process
      `cur` with wait queue `wq`, having produced `r` so far.
      After a FORK the loop goes on at the line after the parent index; when
      that index is 0 (no IF_PARENT after the FORK) this is line 1, which for a
      FORK at line 1 or later is a jump back and may repeat forever. Such a
      jump, and each EXEC, costs one unit of `fuel`; a forked child runs with
      the same fuel, as its trace is shorter. */
  function Loop<M>(env: Env<M>, trace: seq<Event>, i: nat, cur: Pcb, wq: seq<Pcb>, r: Run<M>, fuel: nat): (o: Outcome<M>)
    requires i <= |trace|
    ensures o.Finished? ==> r.nextPid <= o.run.nextPid
    decreases fuel, |trace|, |trace| - i
  {
    if i == |trace| then Finished(r)
    else match trace[i]
      case Cpu(d) => Loop(env, trace, i + 1, cur, wq, Burst(r, d), fuel)
      case Syscall(n) =>
        if 0 <= n < |env.delays| then Loop(env, trace, i + 1, cur, wq, Interrupt(env, r, n, SyscallIsr), fuel)
        else BadDevice(n)
      case EndIo(n) =>
        if 0 <= n < |env.delays| then Loop(env, trace, i + 1, cur, wq, Interrupt(env, r, n, EndIoIsr), fuel)
        else BadDevice(n)
      case Fork =>
        var (child, r1) := ForkStart(env, r, cur, wq);
        var (childTrace, parentIndex) := Branch.ExtractChild(trace, i);
        var ran := if child.partition != NoPartition then Loop(env, childTrace, 0, child, [], Fresh(r1), fuel)
                   else Finished(Fresh(r1));
        if !ran.Finished? then ran
        else
          var r2 := ForkFinish(env, Splice(r1, ran.run), child);
          var pushed := wq + [child];
          var popped := pushed[..|pushed| - 1];
          var next := parentIndex + 1;
          if i < next then Loop(env, trace, next, cur, popped, r2, fuel)
          else if fuel == 0 then OutOfFuel
          else Loop(env, trace, next, cur, popped, r2, fuel - 1)
      case Exec(program) =>
        var (image, r1) := ExecStart(env, r, cur, wq, program);
        if fuel == 0 then OutOfFuel
        else
          var ran := Loop(env, env.programTrace(program), 0, image, wq, Fresh(r1), fuel - 1);
          if ran.Finished? then Finished(Splice(r1, ran.run)) else ran
      case _ => Loop(env, trace, i + 1, cur, wq, r, fuel)
  }

  /** One simulation of `trace` from `time`, as the simulator's entry point
      is called: empty logs, the given process and wait queue. An empty trace
      yields empty logs and the starting time. */
  function Simulate<M>(env: Env<M>, trace: seq<Event>, time: int, cur: Pcb, wq: seq<Pcb>,
                       nextPid: nat, mem: M, fuel: nat): (o: Outcome<M>)
    ensures trace == [] ==> o == Finished(Run([], [], time, nextPid, mem))
    ensures o.Finished? ==> nextPid <= o.run.nextPid
  {
    Loop(env, trace, 0, cur, wq, Run([], [], time, nextPid, mem), fuel)
  }

  /** The root run: the init process (PID 0, no parent, size 1) asks for
      memory; a refusal is only reported by the driver and the run goes on
      without a partition. The trace then runs from time 0 with an empty wait
      queue and PIDs counted from 1. */
  function Boot<M>(env: Env<M>, mem: M, trace: seq<Event>, fuel: nat): (res: (Pcb, Outcome<M>))
    ensures var (root, o) := res;
            var grant := env.allocate(mem, RootPcb());
            && root == RootPcb().(partition := root.partition)
            && (root.partition != NoPartition <==> grant.Granted?)
            && (trace == [] ==> o == Finished(Run([], [], 0, 1, grant.mem)))
            && (o.Finished? ==> 1 <= o.run.nextPid)
  {
    var (root, mem1, _) := Allocate(env, mem, RootPcb());
    (root, Simulate(env, trace, 0, root, [], 1, mem1, fuel))
  }
}

=== FILE: simulator_facts.dfy ===
/** Properties of the trace interpreter. */
module SimulatorFacts {
  import opened Trace
  import opened Process
  import opened Platform
  import opened Branch
  import opened BranchFacts
  import opened Simulator

  /** No CPU burst in `trace` has a negative length. */
  ghost predicate NonNegativeBursts(trace: seq<Event>) {
    forall e :: e in trace && e.Cpu? ==> e.duration >= 0
  }

  /** No device delay and no burst of any loadable program is negative. */
  ghost predicate NonNegativeCosts<M>(env: Env<M>) {
    && (forall n :: 0 <= n < |env.delays| ==> env.delays[n] >= 0)
    && (forall p :: NonNegativeBursts(env.programTrace(p)))
  }

  /** With no negative costs, a simulation that finishes never ends before it
      started: every event, forked child and loaded program only adds time. */
  lemma {:induction false} ClockNeverGoesBack<M>(env: Env<M>, trace: seq<Event>, i: nat, cur: Pcb, wq: seq<Pcb>,
                                                 r: Run<M>, fuel: nat)
    requires i <= |trace|
    requires ValidEnv(env) && NonNegativeCosts(env) && NonNegativeBursts(trace)
    ensures Loop(env, trace, i, cur, wq, r, fuel).Finished? ==> Loop(env, trace, i, cur, wq, r, fuel).run.clock >= r.clock
    decreases fuel, |trace|, |trace| - i, 1
  {
    if i < |trace| {
      match trace[i]
      case Cpu(d) =>
        assert trace[i] in trace;
        ClockNeverGoesBack(env, trace, i + 1, cur, wq, Burst(r, d), fuel);
      case Syscall(n) =>
        if 0 <= n < |env.delays| {
          ClockNeverGoesBack(env, trace, i + 1, cur, wq, Interrupt(env, r, n, SyscallIsr), fuel);
        }
      case EndIo(n) =>
        if 0 <= n < |env.delays| {
          ClockNeverGoesBack(env, trace, i + 1, cur, wq, Interrupt(env, r, n, EndIoIsr), fuel);
        }
      case Fork =>
        ForkClock(env, trace, i, cur, wq, r, fuel);
      case Exec(program) =>
        var (image, r1) := ExecStart(env, r, cur, wq, program);
        if fuel > 0 {
          ClockNeverGoesBack(env, env.programTrace(program), 0, image, wq, Fresh(r1), fuel - 1);
        }
      case _ =>
        ClockNeverGoesBack(env, trace, i + 1, cur, wq, r, fuel);
    }
  }

  lemma {:induction false} ForkClock<M>(env: Env<M>, trace: seq<Event>, i: nat, cur: Pcb, wq: seq<Pcb>,
                                        r: Run<M>, fuel: nat)
    requires i < |trace| && trace[i].Fork?
    requires ValidEnv(env) && NonNegativeCosts(env) && NonNegativeBursts(trace)
    ensures Loop(env, trace, i, cur, wq, r, fuel).Finished? ==> Loop(env, trace, i, cur, wq, r, fuel).run.clock >= r.clock
    decreases fuel, |trace|, |trace| - i, 0
  {
    var (child, r1) := ForkStart(env, r, cur, wq);
    var (childTrace, parentIndex) := ExtractChild(trace, i);
    ChildIsSubsequence(trace, i);
    if child.partition != NoPartition {
      ClockNeverGoesBack(env, childTrace, 0, child, [], Fresh(r1), fuel);
    }
    var ran := if child.partition != NoPartition then Loop(env, childTrace, 0, child, [], Fresh(r1), fuel)
               else Finished(Fresh(r1));
    if ran.Finished? {
      var r2 := ForkFinish(env, Splice(r1, ran.run), child);
      var pushed := wq + [child];
      var popped := pushed[..|pushed| - 1];
      var next := parentIndex + 1;
      if i < next {
        ClockNeverGoesBack(env, trace, next, cur, popped, r2, fuel);
      } else if fuel > 0 {
        ClockNeverGoesBack(env, trace, next, cur, popped, r2, fuel - 1);
      }
    }
  }

  /** `r'` continues `r`: both logs of `r` are prefixes of those of `r'`,
      and the PID counter has not gone down. */
  ghost predicate Extends<M>(r: Run<M>, r': Run<M>) {
    && |r.exec| <= |r'.exec| && r'.exec[..|r.exec|] == r.exec
    && |r.status| <= |r'.status| && r'.status[..|r.status|] == r.status
    && r.nextPid <= r'.nextPid
  }

  lemma ExtendsTrans<M>(r1: Run<M>, r2: Run<M>, r3: Run<M>)
    requires Extends(r1, r2) && Extends(r2, r3)
    ensures Extends(r1, r3)
  {
  }

  /** Lines appended to both logs, and a counter that does not go down. */
  lemma ExtendsByAppending<M>(r: Run<M>, r': Run<M>, lines: seq<Record>, snaps: seq<Snapshot>)
    requires r'.exec == r.exec + lines && r'.status == r.status + snaps && r.nextPid <= r'.nextPid
    ensures Extends(r, r')
  {
  }

  /** A simulation that finishes never removes or rewrites a line of either
      log, and never lowers the PID counter: everything it does, including
      forked children and loaded programs, is appended. */
  lemma {:induction false} LogsOnlyGrow<M>(env: Env<M>, trace: seq<Event>, i: nat, cur: Pcb, wq: seq<Pcb>,
                                           r: Run<M>, fuel: nat)
    requires i <= |trace|
    ensures var o := Loop(env, trace, i, cur, wq, r, fuel);
            o.Finished? ==> Extends(r, o.run)
    decreases fuel, |trace|, |trace| - i, 1
  {
    if i == |trace| {
      ExtendsByAppending(r, r, [], []);
    } else {
      match trace[i]
      case Cpu(d) =>
        BurstLogs(env, trace, i, cur, wq, r, fuel, d);
      case Syscall(n) =>
        if 0 <= n < |env.delays| {
          InterruptLogs(env, trace, i, cur, wq, r, fuel, n, SyscallIsr);
        }
      case EndIo(n) =>
        if 0 <= n < |env.delays| {
          InterruptLogs(env, trace, i, cur, wq, r, fuel, n, EndIoIsr);
        }
      case Fork =>
        ForkLogs(env, trace, i, cur, wq, r, fuel);
      case Exec(_) =>
      case _ =>
        LogsOnlyGrow(env, trace, i + 1, cur, wq, r, fuel);
    }
  }

  lemma {:induction false} BurstLogs<M>(env: Env<M>, trace: seq<Event>, i: nat, cur: Pcb, wq: seq<Pcb>,
                                        r: Run<M>, fuel: nat, d: int)
    requires i < |trace|
    ensures var o := Loop(env, trace, i + 1, cur, wq, Burst(r, d), fuel);
            o.Finished? ==> Extends(r, o.run)
    decreases fuel, |trace|, |trace| - i, 0
  {
    var r' := Burst(r, d);
    ExtendsByAppending(r, r', [Record(r.clock, d, CpuBurst)], []);
    LogsOnlyGrow(env, trace, i + 1, cur, wq, r', fuel);
    var o := Loop(env, trace, i + 1, cur, wq, r', fuel);
    if o.Finished? {
      ExtendsTrans(r, r', o.run);
    }
  }

  lemma {:induction false} InterruptLogs<M>(env: Env<M>, trace: seq<Event>, i: nat, cur: Pcb, wq: seq<Pcb>,
                                            r: Run<M>, fuel: nat, n: int, kind: IsrKind)
    requires i < |trace| && 0 <= n < |env.delays|
    ensures var o := Loop(env, trace, i + 1, cur, wq, Interrupt(env, r, n, kind), fuel);
            o.Finished? ==> Extends(r, o.run)
    decreases fuel, |trace|, |trace| - i, 0
  {
    var r' := Interrupt(env, r, n, kind);
    assert r'.exec == r.exec + r'.exec[|r.exec|..];
    ExtendsByAppending(r, r', r'.exec[|r.exec|..], []);
    LogsOnlyGrow(env, trace, i + 1, cur, wq, r', fuel);
    var o := Loop(env, trace, i + 1, cur, wq, r', fuel);
    if o.Finished? {
      ExtendsTrans(r, r', o.run);
    }
  }

  /** FORK up to the termination line, around a child run `sub` started
      from the state after the creation line, only appends to the logs. */
  lemma ForkExtends<M>(env: Env<M>, r: Run<M>, cur: Pcb, wq: seq<Pcb>, sub: Run<M>)
    requires ForkStart(env, r, cur, wq).1.nextPid <= sub.nextPid
    ensures var (child, r1) := ForkStart(env, r, cur, wq);
            Extends(r, ForkFinish(env, Splice(r1, sub), child))
  {
  }

  lemma {:induction false} ForkLogs<M>(env: Env<M>, trace: seq<Event>, i: nat, cur: Pcb, wq: seq<Pcb>,
                                       r: Run<M>, fuel: nat)
    requires i < |trace| && trace[i].Fork?
    ensures var o := Loop(env, trace, i, cur, wq, r, fuel);
            o.Finished? ==> Extends(r, o.run)
    decreases fuel, |trace|, |trace| - i, 0
  {
    var (child, r1) := ForkStart(env, r, cur, wq);
    var (childTrace, parentIndex) := ExtractChild(trace, i);
    if child.partition != NoPartition {
      LogsOnlyGrow(env, childTrace, 0, child, [], Fresh(r1), fuel);
    }
    var ran := if child.partition != NoPartition then Loop(env, childTrace, 0, child, [], Fresh(r1), fuel)
               else Finished(Fresh(r1));
    if ran.Finished? {
      var r2 := ForkFinish(env, Splice(r1, ran.run), child);
      ForkExtends(env, r, cur, wq, ran.run);
      var pushed := wq + [child];
      var popped := pushed[..|pushed| - 1];
      var next := parentIndex + 1;
      var fuel' := if i < next then fuel else fuel - 1;
      if i < next || fuel > 0 {
        LogsOnlyGrow(env, trace, next, cur, popped, r2, fuel');
        var o := Loop(env, trace, next, cur, popped, r2, fuel');
        if o.Finished? {
          ExtendsTrans(r, r2, o.run);
        }
      }
    }
  }

  /** The PIDs announced by "child process created" lines of `log`, in order. */
  function CreatedPids(log: seq<Record>): (pids: seq<int>)
    decreases |log|
  {
    if log == [] then []
    else
      var last := log[|log| - 1].description;
      CreatedPids(log[..|log| - 1]) + (if last.ChildCreated? then [last.pid] else [])
  }

  /** No line of `lines` announces a created child. */
  predicate Quiet(lines: seq<Record>) {
    forall k :: 0 <= k < |lines| ==> !lines[k].description.ChildCreated?
  }

  lemma {:induction false} CreatedPidsAppend(a: seq<Record>, b: seq<Record>)
    ensures CreatedPids(a + b) == CreatedPids(a) + CreatedPids(b)
    decreases |b|
  {
    if b == [] {
      assert a + b == a;
    } else {
      var b' := b[..|b| - 1];
      assert (a + b)[..|a + b| - 1] == a + b';
      CreatedPidsAppend(a, b');
    }
  }

  lemma {:induction false} QuietHasNoPids(lines: seq<Record>)
    requires Quiet(lines)
    ensures CreatedPids(lines) == []
    decreases |lines|
  {
    if lines != [] {
      QuietHasNoPids(lines[..|lines| - 1]);
    }
  }

  /** The announced PIDs of `log` strictly increase and lie in [lo, hi). */
  ghost predicate PidLog(log: seq<Record>, lo: int, hi: int) {
    var s := CreatedPids(log);
    && (forall x, y :: 0 <= x < y < |s| ==> s[x] < s[y])
    && (forall k :: 0 <= k < |s| ==> lo <= s[k] < hi)
  }

  lemma PidLogJoin(a: seq<Record>, b: seq<Record>, lo: int, mid: int, hi: int)
    requires lo <= mid <= hi && PidLog(a, lo, mid) && PidLog(b, mid, hi)
    ensures PidLog(a + b, lo, hi)
  {
    CreatedPidsAppend(a, b);
  }

  lemma PidLogQuiet(log: seq<Record>, lines: seq<Record>, lo: int, hi: int)
    requires PidLog(log, lo, hi) && Quiet(lines)
    ensures PidLog(log + lines, lo, hi)
  {
    CreatedPidsAppend(log, lines);
    QuietHasNoPids(lines);
    assert CreatedPids(log) + [] == CreatedPids(log);
  }

  /** The first half of FORK announces at most the PID it takes from the counter. */
  lemma ForkStartPids<M>(env: Env<M>, r: Run<M>, cur: Pcb, wq: seq<Pcb>, lo: int)
    requires lo <= r.nextPid && PidLog(r.exec, lo, r.nextPid)
    ensures PidLog(ForkStart(env, r, cur, wq).1.exec, lo, r.nextPid + 1)
  {
    var r1 := ForkStart(env, r, cur, wq).1;
    var added := r1.exec[|r.exec|..];
    assert r1.exec == r.exec + added;
    assert added[..1][..0] == [] && added[..|added| - 1] == added[..1];
    assert CreatedPids(added[..1]) == [];
    assert PidLog(added, r.nextPid, r1.nextPid);
    PidLogJoin(r.exec, added, lo, r.nextPid, r1.nextPid);
  }

  /** SYSCALL and END_IO announce no child. */
  lemma InterruptPids<M>(env: Env<M>, r: Run<M>, n: int, kind: IsrKind, lo: int)
    requires 0 <= n < |env.delays| && PidLog(r.exec, lo, r.nextPid)
    ensures PidLog(Interrupt(env, r, n, kind).exec, lo, r.nextPid)
  {
    var r' := Interrupt(env, r, n, kind);
    PidLogQuiet(r.exec, r'.exec[|r.exec|..], lo, r.nextPid);
    assert r'.exec == r.exec + r'.exec[|r.exec|..];
  }

  /** The PID counter only grows, and the children announced in the
      execution log get strictly increasing PIDs drawn from the counter: a
      PID is never handed out twice, across all recursion levels. */
  lemma {:induction false} PidsNeverReused<M>(env: Env<M>, trace: seq<Event>, i: nat, cur: Pcb, wq: seq<Pcb>,
                                              r: Run<M>, fuel: nat, lo: int)
    requires i <= |trace|
    requires lo <= r.nextPid && PidLog(r.exec, lo, r.nextPid)
    ensures var o := Loop(env, trace, i, cur, wq, r, fuel);
            o.Finished? ==> r.nextPid <= o.run.nextPid && PidLog(o.run.exec, lo, o.run.nextPid)
    decreases fuel, |trace|, |trace| - i, 1
  {
    if i < |trace| {
      match trace[i]
      case Cpu(d) =>
        PidLogQuiet(r.exec, [Record(r.clock, d, CpuBurst)], lo, r.nextPid);
        PidsNeverReused(env, trace, i + 1, cur, wq, Burst(r, d), fuel, lo);
      case Syscall(n) =>
        if 0 <= n < |env.delays| {
          InterruptPids(env, r, n, SyscallIsr, lo);
          PidsNeverReused(env, trace, i + 1, cur, wq, Interrupt(env, r, n, SyscallIsr), fuel, lo);
        }
      case EndIo(n) =>
        if 0 <= n < |env.delays| {
          InterruptPids(env, r, n, EndIoIsr, lo);
          PidsNeverReused(env, trace, i + 1, cur, wq, Interrupt(env, r, n, EndIoIsr), fuel, lo);
        }
      case Fork =>
        ForkPids(env, trace, i, cur, wq, r, fuel, lo);
      case Exec(program) =>
        ExecPids(env, trace, i, cur, wq, r, fuel, lo);
      case _ =>
        PidsNeverReused(env, trace, i + 1, cur, wq, r, fuel, lo);
    }
  }

  /** FORK up to the termination line, around a child run `sub` that
      announced only PIDs it took from the counter, keeps the PID log in order. */
  lemma ForkFinishPids<M>(env: Env<M>, r: Run<M>, cur: Pcb, wq: seq<Pcb>, sub: Run<M>, lo: int)
    requires lo <= r.nextPid && PidLog(r.exec, lo, r.nextPid)
    requires r.nextPid + 1 <= sub.nextPid && PidLog(sub.exec, r.nextPid + 1, sub.nextPid)
    ensures var (child, r1) := ForkStart(env, r, cur, wq);
            PidLog(ForkFinish(env, Splice(r1, sub), child).exec, lo, sub.nextPid)
  {
    var (child, r1) := ForkStart(env, r, cur, wq);
    ForkStartPids(env, r, cur, wq, lo);
    PidLogJoin(r1.exec, sub.exec, lo, r1.nextPid, sub.nextPid);
    var spliced := Splice(r1, sub);
    PidLogQuiet(spliced.exec, [Record(spliced.clock, 1, ChildTerminated)], lo, spliced.nextPid);
  }

  lemma {:induction false} ForkPids<M>(env: Env<M>, trace: seq<Event>, i: nat, cur: Pcb, wq: seq<Pcb>,
                                       r: Run<M>, fuel: nat, lo: int)
    requires i < |trace| && trace[i].Fork?
    requires lo <= r.nextPid && PidLog(r.exec, lo, r.nextPid)
    ensures var o := Loop(env, trace, i, cur, wq, r, fuel);
            o.Finished? ==> r.nextPid <= o.run.nextPid && PidLog(o.run.exec, lo, o.run.nextPid)
    decreases fuel, |trace|, |trace| - i, 0
  {
    var (child, r1) := ForkStart(env, r, cur, wq);
    var (childTrace, parentIndex) := ExtractChild(trace, i);
    ForkEvent(env, trace, i, cur, wq, r, fuel);
    var ran := if child.partition != NoPartition then Loop(env, childTrace, 0, child, [], Fresh(r1), fuel)
               else Finished(Fresh(r1));
    if child.partition != NoPartition {
      PidsNeverReused(env, childTrace, 0, child, [], Fresh(r1), fuel, r1.nextPid);
    } else {
      assert Splice(r1, ran.run) == r1;
    }
    if ran.Finished? {
      var r2 := ForkFinish(env, Splice(r1, ran.run), child);
      ForkFinishPids(env, r, cur, wq, ran.run, lo);
      var next := parentIndex + 1;
      if i < next {
        PidsNeverReused(env, trace, next, cur, wq, r2, fuel, lo);
      } else if fuel > 0 {
        PidsNeverReused(env, trace, next, cur, wq, r2, fuel - 1, lo);
      }
    }
  }

  lemma {:induction false} ExecPids<M>(env: Env<M>, trace: seq<Event>, i: nat, cur: Pcb, wq: seq<Pcb>,
                                       r: Run<M>, fuel: nat, lo: int)
    requires i < |trace| && trace[i].Exec?
    requires lo <= r.nextPid && PidLog(r.exec, lo, r.nextPid)
    ensures var o := Loop(env, trace, i, cur, wq, r, fuel);
            o.Finished? ==> r.nextPid <= o.run.nextPid && PidLog(o.run.exec, lo, o.run.nextPid)
    decreases fuel, |trace|, |trace| - i, 0
  {
    var program := trace[i].program;
    var (image, r1) := ExecStart(env, r, cur, wq, program);
    var added := r1.exec[|r.exec|..];
    assert r1.exec == r.exec + added;
    PidLogQuiet(r.exec, added, lo, r.nextPid);
    if fuel > 0 {
      PidsNeverReused(env, env.programTrace(program), 0, image, wq, Fresh(r1), fuel - 1, r1.nextPid);
      var ran := Loop(env, env.programTrace(program), 0, image, wq, Fresh(r1), fuel - 1);
      if ran.Finished? {
        PidLogJoin(r1.exec, ran.run.exec, lo, r1.nextPid, ran.run.nextPid);
      }
    }
  }

  /** The root run announces children with strictly increasing PIDs, all of
      them above the init process's PID 0 and below the final counter. */
  lemma BootNeverReusesPids<M>(env: Env<M>, mem: M, trace: seq<Event>, fuel: nat)
    ensures var o := Boot(env, mem, trace, fuel).1;
            o.Finished? ==>
              var s := CreatedPids(o.run.exec);
              && (forall x, y :: 0 <= x < y < |s| ==> s[x] < s[y])
              && (forall k :: 0 <= k < |s| ==> RootPcb().pid < s[k] < o.run.nextPid)
  {
    var (root, mem1, _) := Allocate(env, mem, RootPcb());
    PidsNeverReused(env, trace, 0, root, [], Run([], [], 0, 1, mem1), fuel, 1);
  }

  /** Total length of the CPU bursts in `trace`. */
  function BurstTime(trace: seq<Event>): (total: int)
    decreases |trace|
  {
    if trace == [] then 0
    else
      var last := trace[|trace| - 1];
      BurstTime(trace[..|trace| - 1]) + (if last.Cpu? then last.duration else 0)
  }

  /** `r` is `r0` after the CPU bursts `trace[..n]`: one line per burst,
      stamped with the time the earlier bursts add up to. */
  ghost predicate BurstsLogged<M>(trace: seq<Event>, n: nat, r0: Run<M>, r: Run<M>)
    requires n <= |trace|
  {
    && r.clock == r0.clock + BurstTime(trace[..n])
    && |r.exec| == |r0.exec| + n && r.exec[..|r0.exec|] == r0.exec
    && (forall k :: 0 <= k < n ==>
          trace[k].Cpu? && r.exec[|r0.exec| + k] == Record(r0.clock + BurstTime(trace[..k]), trace[k].duration, CpuBurst))
    && r.status == r0.status && r.nextPid == r0.nextPid && r.mem == r0.mem
  }

  lemma {:induction false} BurstsFrom<M>(env: Env<M>, trace: seq<Event>, i: nat, cur: Pcb, wq: seq<Pcb>,
                                         r0: Run<M>, r: Run<M>, fuel: nat)
    requires i <= |trace| && (forall k :: 0 <= k < |trace| ==> trace[k].Cpu?)
    requires BurstsLogged(trace, i, r0, r)
    ensures var o := Loop(env, trace, i, cur, wq, r, fuel);
            o.Finished? && BurstsLogged(trace, |trace|, r0, o.run)
    decreases |trace| - i
  {
    if i < |trace| {
      var r' := Burst(r, trace[i].duration);
      assert trace[..i + 1][..i] == trace[..i];
      assert r'.exec[..|r0.exec|] == r0.exec by {
        assert r'.exec[..|r0.exec|] == r.exec[..|r0.exec|];
      }
      assert BurstsLogged(trace, i + 1, r0, r');
      BurstsFrom(env, trace, i + 1, cur, wq, r0, r', fuel);
    } else {
      assert trace[..i] == trace;
    }
  }

  /** A trace of CPU bursts only: one log line per burst, each stamped with the
      clock at its start, and the clock ends advanced by the sum of the bursts. */
  lemma CpuOnlyTrace<M>(env: Env<M>, trace: seq<Event>, cur: Pcb, wq: seq<Pcb>, r: Run<M>, fuel: nat)
    requires forall k :: 0 <= k < |trace| ==> trace[k].Cpu?
    ensures var o := Loop(env, trace, 0, cur, wq, r, fuel);
            && o.Finished?
            && o.run.clock == r.clock + BurstTime(trace)
            && |o.run.exec| == |r.exec| + |trace| && o.run.exec[..|r.exec|] == r.exec
            && (forall k :: 0 <= k < |trace| ==>
                  o.run.exec[|r.exec| + k] == Record(r.clock + BurstTime(trace[..k]), trace[k].duration, CpuBurst))
            && o.run.status == r.status && o.run.nextPid == r.nextPid && o.run.mem == r.mem
  {
    assert trace[..0] == [];
    BurstsFrom(env, trace, 0, cur, wq, r, r, fuel);
    assert trace[..|trace|] == trace;
  }

  /** Once the loop reaches an EXEC, no later line of its trace is looked at:
      the run is the same with everything after the EXEC cut off. */
  lemma {:induction false} ExecEndsTrace<M>(env: Env<M>, trace: seq<Event>, i: nat, k: nat, cur: Pcb, wq: seq<Pcb>,
                                            r: Run<M>, fuel: nat)
    requires i <= k < |trace| && trace[k].Exec?
    requires forall j :: i <= j < k ==> !trace[j].Fork?
    ensures Loop(env, trace, i, cur, wq, r, fuel) == Loop(env, trace[..k + 1], i, cur, wq, r, fuel)
    decreases k - i
  {
    var cut := trace[..k + 1];
    assert cut[i] == trace[i];
    if i < k {
      match trace[i]
      case Cpu(d) =>
        ExecEndsTrace(env, trace, i + 1, k, cur, wq, Burst(r, d), fuel);
      case Syscall(n) =>
        if 0 <= n < |env.delays| {
          ExecEndsTrace(env, trace, i + 1, k, cur, wq, Interrupt(env, r, n, SyscallIsr), fuel);
        }
      case EndIo(n) =>
        if 0 <= n < |env.delays| {
          ExecEndsTrace(env, trace, i + 1, k, cur, wq, Interrupt(env, r, n, EndIoIsr), fuel);
        }
      case Exec(_) =>
      case Fork =>
        assert false;
      case _ =>
        ExecEndsTrace(env, trace, i + 1, k, cur, wq, r, fuel);
    }
  }

  /** Where the loop goes after a FORK at `i` that resumes at `next`: forward
      for free, backward at the cost of one unit of fuel. */
  ghost function ResumeAt<M>(env: Env<M>, trace: seq<Event>, i: nat, next: nat, cur: Pcb, wq: seq<Pcb>,
                             r: Run<M>, fuel: nat): (o: Outcome<M>)
    requires next <= |trace|
  {
    if i < next then Loop(env, trace, next, cur, wq, r, fuel)
    else if fuel == 0 then OutOfFuel
    else Loop(env, trace, next, cur, wq, r, fuel - 1)
  }

  /** FORK: the child runs only when it got memory, on its extracted trace,
      with an empty wait queue; a child that got none leaves no trace beyond
      the memory-full line. Either way the parent then goes on after the
      parent index with its wait queue exactly as before the FORK. */
  lemma ForkEvent<M>(env: Env<M>, trace: seq<Event>, i: nat, cur: Pcb, wq: seq<Pcb>, r: Run<M>, fuel: nat)
    requires i < |trace| && trace[i].Fork?
    ensures var (child, r1) := ForkStart(env, r, cur, wq);
            var (childTrace, parentIndex) := ExtractChild(trace, i);
            var o := Loop(env, trace, i, cur, wq, r, fuel);
            var sub := Loop(env, childTrace, 0, child, [], Fresh(r1), fuel);
            && (child.partition == NoPartition ==>
                  o == ResumeAt(env, trace, i, parentIndex + 1, cur, wq, ForkFinish(env, r1, child), fuel))
            && (child.partition != NoPartition && sub.Finished? ==>
                  o == ResumeAt(env, trace, i, parentIndex + 1, cur, wq, ForkFinish(env, Splice(r1, sub.run), child), fuel))
            && (child.partition != NoPartition && !sub.Finished? ==> o == sub)
  {
    var (child, r1) := ForkStart(env, r, cur, wq);
    assert Splice(r1, Fresh(r1)) == r1 by {
      assert r1.exec + [] == r1.exec && r1.status + [] == r1.status;
    }
    var pushed := wq + [child];
    assert pushed[..|pushed| - 1] == wq;
  }

  /** EXEC: the loaded program's trace runs from its first line as the new
      image, with the same wait queue and one unit less fuel; its logs are
      appended to this run's, and its clock, counter and memory state become
      this run's. Nothing of the current trace runs after it. */
  lemma ExecEvent<M>(env: Env<M>, trace: seq<Event>, i: nat, cur: Pcb, wq: seq<Pcb>, r: Run<M>, fuel: nat)
    requires i < |trace| && trace[i].Exec?
    ensures var program := trace[i].program;
            var (image, r1) := ExecStart(env, r, cur, wq, program);
            var o := Loop(env, trace, i, cur, wq, r, fuel);
            && (fuel == 0 ==> o == OutOfFuel)
            && (fuel > 0 ==>
                  var sub := Loop(env, env.programTrace(program), 0, image, wq, Fresh(r1), fuel - 1);
                  && (sub.Finished? ==>
                        && o.Finished?
                        && o.run.exec == r1.exec + sub.run.exec && o.run.status == r1.status + sub.run.status
                        && o.run.clock == sub.run.clock && o.run.nextPid == sub.run.nextPid && o.run.mem == sub.run.mem)
                  && (!sub.Finished? ==> o == sub))
  {
  }
}

=== FILE: trace.dfy ===
/** The parsed form of one trace line: an activity, its integer parameter
    and, for EXEC, the program to load. Lines are parsed once, up front. */
module Trace {

  datatype Event =
    | Cpu(duration: int)        // CPU burst of `duration` ticks
    | Syscall(device: int)      // system call on device `device`
    | EndIo(device: int)        // I/O completion interrupt from device `device`
    | Fork                      // create a child process
    | Exec(program: string)     // replace the process image by `program`
    | IfChild                   // start of the child's branch after a FORK
    | IfParent                  // start of the parent's branch after a FORK
    | EndIf                     // end of the branch structure
    | Other(activity: string)   // an activity the simulator does not act on

  /** The three structural markers that only the fork branch scan looks at. */
  predicate IsMarker(e: Event) {
    e.IfChild? || e.IfParent? || e.EndIf?
  }

  /** No structural marker occurs in `s`. */
  predicate MarkerFree(s: seq<Event>) {
    forall k :: 0 <= k < |s| ==> !IsMarker(s[k])
  }

  /** No EXEC occurs in `s`. */
  predicate ExecFree(s: seq<Event>) {
    forall k :: 0 <= k < |s| ==> !s[k].Exec?
  }

  /** Neither a structural marker nor an EXEC occurs in `s`. */
  predicate Plain(s: seq<Event>) {
    forall k :: 0 <= k < |s| ==> !IsMarker(s[k]) && !s[k].Exec?
  }
}
